=== FILE: README.md ===
# An inverted-index search over sonnets, in Dafny

This project models the search engine in `part11/models.py`. It covers:

- the whitespace tokenizer (`Index.tokenize`);
- how the index is built: `Index.__init__` feeding `Index._add_token`, with
  stem → document id → postings;
- the two ways of turning postings into a `SearchResult`:
  `Index.search_for` and `Sonnet.search_for`;
- how two results are combined (`SearchResult.combine_with`);
- the query loop of `Searcher.search` in "OR" and "AND" mode;
- the span merge and rendering of `SearchResult.ansi_highlight`;
- the substring finder `Sonnet.find_spans`.

Everything is modelled with values: datatypes, sequences and maps, and pure
functions. The one loop-based algorithm, `find_spans`, is a method.

Modules, in dependency order:

- `Optional`: `Option`, for a title posting (no line) and for a missing line.
- `Spans`: span order (Python's tuple order), the sort, and the merge of
  overlapping spans. Also the positions a span list covers.
- `Highlight`: the rendering of `ansi_highlight`. The ANSI escape strings
  become abstract pieces: a text character, an "open" marker in one of the
  two styles, or a "reset" marker.
- `Tokens`: `tokenize` as maximal runs of non-whitespace characters, using
  Python's `str.isspace` set. Also `query.split()`.
- `Substring`: `find_spans`.
- `Indexing`: postings, `_add_token`, and the index build. The build is
  written as a fold of `_add_token` over the entries that `__init__` scans:
  title tokens first, then lines 1 to n, document by document.
- `Results`: `LineMatch`, `SearchResult` and `combine_with`. The per-line map
  of `combine_with` is a list kept in line order.
- `Lookup`: `Index.search_for` and `Sonnet.search_for`, and how they agree.
- `Query`: `Searcher.search`, its per-word lookups and both fold modes, and
  the final listing by title.

The stemmer (`normalized_stem_token`) is a parameter `stem: string -> string`
that nothing is assumed about. The index stores `stem(token)`. The query
loop asks the index for `stem(stem(word))`, because `search` stems each word
and `Index.search_for` stems its argument again.

Line numbers are 1-based, as the code makes them (`enumerate(..., start=1)`,
`self.lines[ln - 1]`). The `_add_token` docstring says `0..n-1`; the model
follows the code.

## Model

| member | source | states |
|---|---|---|
| Spans.Insert | part11/models.py:277 | inserting one span into a sorted list keeps it sorted and adds exactly that span |
| Spans.SortSpans | part11/models.py:277 | `sorted(spans)` is ordered by (start, end) and is a permutation of its input |
| Spans.SortedUnique | part11/models.py:277 | two sorted lists with the same elements are equal, so the sort's result is determined by the multiset alone |
| Spans.SortSorted | part11/models.py:277 | sorting an already sorted list leaves it unchanged |
| Spans.SortPermutationInvariant | part11/models.py:325 | the sorted title spans depend only on which spans there are, not on their order |
| Spans.SortCovers | part11/models.py:277 | sorting does not change which positions the spans cover |
| Spans.Coalesce | part11/models.py:281-288 | the merge loop yields at least one span, and the first starts where the current span starts |
| Spans.CoalesceSeparated | part11/models.py:281-288 | from a sorted tail with well-formed spans, the merged spans are separated: each ends before the next starts |
| Spans.Merge | part11/models.py:277-288 | the merged list is empty exactly when the input is, and its spans are separated when every input span has start <= end |
| Spans.SortKeepsWellFormed | part11/models.py:277 | sorting keeps every span's start <= end |
| Spans.CoalesceCovers | part11/models.py:281-288 | a position is covered after merging exactly when the current span or a later span covers it |
| Spans.MergeCovers | part11/models.py:277-288 | merging covers exactly the positions the input spans cover: no highlighted character is lost or added |
| Spans.CoalesceWithin | part11/models.py:281-288 | merged spans stay inside the text when the input spans do |
| Spans.MergeWithin | part11/models.py:277-288 | merging spans that lie inside a text yields spans inside that text |
| Spans.SeparatedSorted | part11/models.py:283 | separated spans are in sorted order |
| Spans.CoalesceFixed | part11/models.py:281-288 | the merge loop leaves an already separated list unchanged |
| Spans.MergeIdempotent | part11/models.py:277-288 | merging a merged list changes nothing |
| Spans.MergeOrderIndependent | part11/models.py:277-288 | the merge depends only on the multiset of spans, not on their order |
| Highlight.StyleOf | part11/models.py:290 | no contract of its own: "DEFAULT" selects the yellow-background style, every other mode the bold-green one; the `Highlight*` lemmas are stated for either style |
| Highlight.Segment | part11/models.py:296-299 | no contract of its own: one pass of the output loop; `Highlight.SegmentStrip` and `Highlight.SegmentMarks` state what it produces |
| Highlight.RenderFrom | part11/models.py:293-301 | no contract of its own: the output loop over the merged spans from offset i; `Highlight.RenderFromStrip` and `Highlight.RenderFromMarks` state what it produces |
| Highlight.Highlight | part11/models.py:272-302 | no contract of its own: `ansi_highlight`, the text unchanged without spans, else the output loop over the merged spans; `Highlight.HighlightStrip` and `Highlight.HighlightMarks` state its meaning |
| Highlight.Clamp | part11/models.py:296 | a slice bound is clamped into 0..n and kept unchanged when already in range |
| Highlight.Slice | part11/models.py:296-301 | Python's slice agrees with the sequence slice whenever the bounds are in range |
| Highlight.StripAppend | part11/models.py:302 | deleting markers distributes over the joined output |
| Highlight.StripChars | part11/models.py:296 | deleting markers from copied text gives the text back |
| Highlight.MarksAppend | part11/models.py:302 | the highlighted flags of a joined output are those of its parts, the second part starting in the state the first ends in |
| Highlight.MarksChars | part11/models.py:296 | copied text takes the highlighted state it starts in and does not change it |
| Highlight.SegmentStrip | part11/models.py:296-299 | one step of the output loop, with its markers deleted, is the text from the previous end to the span's end |
| Highlight.SegmentMarks | part11/models.py:296-299 | in one step of the output loop exactly the characters from the span's start on are highlighted, and the highlight is closed after it |
| Highlight.RenderFromStrip | part11/models.py:293-301 | the output loop, with its markers deleted, is the text from its start position on |
| Highlight.RenderFromMarks | part11/models.py:293-301 | the output loop highlights exactly the characters the merged spans cover, and closes every highlight it opens |
| Highlight.HighlightStrip | part11/models.py:272-302 | highlighting only inserts markers: deleting them gives the text back, and without spans the text is returned as is |
| Highlight.HighlightMarks | part11/models.py:272-302 | a character of the text is highlighted exactly when some input span covers it |
| Tokens.IsSpace | part11/models.py:126 | no contract of its own: Python's Unicode whitespace for `\s` and `str.split()`, namely code points 9-13, 28-32, 0x85, 0xA0, 0x1680, 0x2000-0x200A, 0x2028, 0x2029, 0x202F, 0x205F and 0x3000; `Tokens.Tokenize` and `Tokens.Words` are stated against it |
| Tokens.RunEnd | part11/models.py:126 | a run of non-whitespace ends at the first whitespace character or at the end of the text |
| Tokens.TokenizeFrom | part11/models.py:124-129 | scanning from a run boundary yields the maximal runs of the rest of the text, in order, covering every non-whitespace character |
| Tokens.Tokenize | part11/models.py:108-129 | every token is a maximal non-whitespace run at its position; tokens are in increasing, non-touching order; every non-whitespace character is in a token |
| Tokens.TokenizeEmpty | part11/models.py:124-129 | no tokens exactly when the text is all whitespace |
| Tokens.MaximalRunsMeet | part11/models.py:126 | two maximal runs that share a position are the same token |
| Tokens.TokenizeComplete | part11/models.py:108-129 | a (token, position) pair is returned exactly when it is a maximal non-whitespace run of the text |
| Tokens.Words | part11/models.py:216 | `query.split()` gives the words of the query in order: each is non-empty and holds no whitespace, every maximal non-whitespace run of the query is one of them, and there are none exactly when the query is all whitespace |
| Substring.FindSpans | part11/models.py:27-37 | an empty pattern gives no spans; otherwise the spans are exactly the occurrences of the pattern, overlapping ones included, in increasing order, each as long as the pattern |
| Indexing.AddToken | part11/models.py:165-172 | `_add_token` appends one posting to the (stem, document) list, creating the maps it needs, and changes no other list |
| Indexing.TextEntries | part11/models.py:94-97 | no contract of its own: the `_add_token` calls for one text, one per token with a non-empty stem, in token order; `Indexing.TextEntriesMember`, `Indexing.TextEntriesLine` and `Indexing.TextEntriesOrdered` state its meaning |
| Indexing.LineEntries | part11/models.py:99-103 | no contract of its own: the calls for the lines, numbered from a first line number; `Indexing.LineEntriesMember`, `Indexing.LineEntriesAfter` and `Indexing.LineEntriesOrdered` state its meaning |
| Indexing.SonnetEntries | part11/models.py:93-103 | no contract of its own: one document's calls, title first, then lines from 1; `Indexing.SonnetEntriesMember`, `Indexing.SonnetEntriesDoc` and `Indexing.SonnetEntriesOrdered` state its meaning |
| Indexing.CorpusEntries | part11/models.py:93 | no contract of its own: the calls for all documents in order; `Indexing.CorpusEntriesMember` states its meaning |
| Indexing.AddAll | part11/models.py:93-103 | no contract of its own: `_add_token` applied to each call in order; `Indexing.AddAllPostings` and `Indexing.AddAllKeys` state its meaning |
| Indexing.SonnetMap | part11/models.py:90 | no contract of its own: the id map, a later document replacing an earlier one with the same id; `Indexing.SonnetMapContents` states its meaning |
| Indexing.Build | part11/models.py:89-103 | no contract of its own: `Index(sonnets)`, the id map and the postings of the whole scan; `Indexing.BuildPostings`, `Indexing.BuildUnknownId` and `Indexing.BuildWellFormed` state its meaning |
| Indexing.AddAllPostings | part11/models.py:93-103 | after the scan, each (stem, document) list is the old list followed by that pair's postings in scan order |
| Indexing.AddAllKeys | part11/models.py:165-170 | a (stem, document) entry exists after the scan exactly when it existed before or the scan added a posting for it |
| Indexing.SelectAppend | part11/models.py:93-103 | the postings a scan contributes to one list split over consecutive parts of the scan |
| Indexing.SelectMember | part11/models.py:172 | a posting is in a (stem, document) list exactly when the scan produced it for that pair |
| Indexing.TextEntriesMember | part11/models.py:94-97 | the scan of one text produces a posting exactly for each token whose stem is non-empty, at that token's position, in that text's line |
| Indexing.LineEntriesMember | part11/models.py:99-103 | the scan of the lines produces a posting exactly for each token of line n (numbered from the first line) whose stem is non-empty |
| Indexing.TextEntriesLine | part11/models.py:97 | every posting from one text carries that text's line number |
| Indexing.LineEntriesAfter | part11/models.py:99 | every posting from the lines carries a line number at least the first one |
| Indexing.SonnetEntriesMember | part11/models.py:93-103 | one document's scan produces exactly the title and line occurrences of the document with a non-empty stem |
| Indexing.TitleEntryMember | part11/models.py:94-97 | the title scan produces exactly the document's title occurrences |
| Indexing.LineEntryMember | part11/models.py:99-103 | the line scan produces exactly the document's line occurrences, numbered from 1 |
| Indexing.CorpusEntriesMember | part11/models.py:93 | the corpus scan is the union of the documents' scans |
| Indexing.SelectNone | part11/models.py:169-172 | a document the scan never visits gets no postings |
| Indexing.SonnetEntriesDoc | part11/models.py:97 | one document's scan files every posting under that document's id |
| Indexing.CorpusSelect | part11/models.py:93-103 | with distinct ids, a document's postings come from its own scan alone, and an id that names no document has none |
| Indexing.SonnetMapContents | part11/models.py:90 | the id map holds exactly the documents' ids, each mapped to a document with that id, and to the document itself when ids are distinct |
| Indexing.OrderedAppend | part11/models.py:93-103 | two ordered scans, the first wholly before the second, form an ordered scan |
| Indexing.TextEntriesOrdered | part11/models.py:94-97 | the postings of one text come in increasing position order |
| Indexing.LineEntriesOrdered | part11/models.py:99-103 | the postings of the lines come in increasing (line, position) order |
| Indexing.SonnetEntriesOrdered | part11/models.py:93-103 | a document's scan visits the title, then the lines in order, each left to right |
| Indexing.SelectOrdered | part11/models.py:172 | every postings list is in scan order: title first, then by line, then by position |
| Indexing.BuildPostings | part11/models.py:89-103 | with distinct ids, in the built index a document's postings for a stem are exactly its occurrences with that stem, in scan order |
| Indexing.BuildUnknownId | part11/models.py:89-103 | an id that names no document has no postings, whether or not the documents' ids are distinct |
| Indexing.CorpusSelectNone | part11/models.py:93-103 | the corpus scan files nothing under an id that no document has |
| Indexing.BuildKnownId | part11/models.py:89-103 | an id with postings in the built index is the id of some document |
| Indexing.BuildListOk | part11/models.py:89-103 | with distinct ids, each list of the built index belongs to a known document, is non-empty, names only lines of that document and is in scan order |
| Indexing.BuildNoEmptyStem | part11/models.py:93-103 | the built index has no empty stem |
| Indexing.BuildSearchable | part11/models.py:89-103 | with distinct ids, the built index can be searched: every listed document is known and every line number names one of its lines |
| Indexing.BuildListsOrdered | part11/models.py:89-103 | with distinct ids, every list of the built index is non-empty and in scan order |
| Indexing.FirstPosted | part11/models.py:90-103 | an occurrence in the first of two documents is posted under that document's id in the built index |
| Indexing.DuplicateIdsUnsearchable | part11/models.py:90-103 | with two documents sharing an id, the id map keeps the second, so an occurrence of the first on a line the second lacks leaves the built index unsearchable |
| Indexing.BuildWellFormed | part11/models.py:89-103 | with distinct ids, the built index keeps its invariant: every posted document is known, every line number names one of its lines, no stem is empty, and each list is non-empty and in scan order |
| Results.Find | part11/models.py:328 | looking up a line number finds the line match with that number, or reports that none has it |
| Results.IncreasingTail | part11/models.py:337 | the tail of a line-ordered list is line-ordered and after its head |
| Results.IncreasingCons | part11/models.py:337 | a line before every other line can be put in front |
| Results.FindHead | part11/models.py:328 | a line number at or before the head is found only at the head |
| Results.PutLine | part11/models.py:335 | storing a line match replaces that line's entry and keeps every other line |
| Results.ExtendLine | part11/models.py:331-335 | adding a line match extends that line's spans, or stores a new line, and keeps every other line |
| Results.LinesByNo | part11/models.py:328 | the per-line map built from a result's line matches is in line order |
| Results.MergeLines | part11/models.py:329-335 | merging the other result's line matches keeps line order |
| Results.Combine | part11/models.py:319-339 | `combine_with` keeps the title, adds the matches, sorts all title spans, and for each line joins both sides' spans; span totals add up and consistency is kept |
| Results.LinesByNoIncreasing | part11/models.py:328 | a line-ordered list passes through the per-line map unchanged |
| Results.PutLast | part11/models.py:335 | storing a line after every other line appends it |
| Results.MergeLinesTotal | part11/models.py:329-335 | merging adds the other side's span count to the total |
| Results.MergeLinesFind | part11/models.py:329-335 | after merging, each line holds this side's spans followed by the other side's |
| Results.MergeLinesFindAll | part11/models.py:329-335 | the per-line join holds for every line number |
| Results.FindExt | part11/models.py:337 | two line-ordered lists that agree on every line number are equal |
| Results.FindFirst | part11/models.py:328 | the head's line number finds the head |
| Results.JoinAssociative | part11/models.py:331-335 | joining per-line spans is associative |
| Results.CombineAssociative | part11/models.py:319-339 | `combine_with` is associative |
| Results.CombineTitlesAssociative | part11/models.py:325 | both groupings of three results give the same sorted title spans |
| Results.SortRegroup | part11/models.py:325 | sorting a sorted concatenation again gives the same list however three span lists are grouped |
| Results.CombineLinesAssociative | part11/models.py:328-337 | both groupings of three line-ordered results give the same line matches |
| Results.JoinSwap | part11/models.py:331-335 | swapping the sides of a per-line join keeps the line and its spans as a multiset |
| Results.CombineSwap | part11/models.py:319-339 | swapping the sides of `combine_with` keeps matches, title spans, and each line's spans as a multiset |
| Lookup.TitleSpans | part11/models.py:191-194 | no contract of its own: the reference list of the title postings' spans, in posting order, against which `Lookup.FoldPostings`, `Lookup.SonnetSearchFor` and `Lookup.TitleSpansSorted` are stated |
| Lookup.LineFor | part11/models.py:195-199 | no contract of its own: the reference line match for line L (its text and one span per posting on it, or none), against which `Lookup.FoldPostings` and `Lookup.GroupLines` are stated |
| Lookup.Single | part11/models.py:189-199 | no contract of its own: the one-match result for one posting; `Lookup.SingleShape` states its meaning |
| Lookup.LineSpansOk | part11/models.py:196 | spans on line L of a well-formed postings list mean L is one of the document's lines |
| Lookup.SingleShape | part11/models.py:189-199 | the result built from one posting has one match: in the title, or on its line with that line's text |
| Lookup.OneTitlePosting | part11/models.py:191-194 | a single title posting gives one title span, a line posting none |
| Lookup.OneLinePosting | part11/models.py:195-197 | a single posting gives one span on its own line and none on any other line |
| Lookup.LineForStep | part11/models.py:201-204 | a line's expected match for a postings list joins that of its prefix with that of its last posting |
| Lookup.FoldStep | part11/models.py:201-204 | combining the running result with the next posting's result keeps it equal to the expected result of the longer prefix |
| Lookup.FoldPostings | part11/models.py:185-204 | folding a document's postings gives its title, one match per posting, the postings' title spans sorted, and for each line the spans of the postings on it |
| Lookup.IndexSearchFor | part11/models.py:174-205 | an empty or unknown stem gives no results; otherwise exactly the documents with at least one posting for the stem, each summarising its postings as `FoldPostings` states |
| Lookup.GroupLines | part11/models.py:47-61 | grouping by line gives line matches in line order, one per line with postings, holding those postings' spans in order |
| Lookup.GroupStep | part11/models.py:50-56 | filing one more posting under its line keeps the grouping exact |
| Lookup.SonnetSearchFor | part11/models.py:39-65 | the per-document search gives the title, the title spans in posting order, the lines grouped, and one match per posting |
| Lookup.SearchForAgree | part11/models.py:174-205 | on a well-formed index the index-wide and the per-document search agree on every known document: it is listed exactly when the per-document result has matches, and then the two results are equal, title spans included |
| Lookup.TitleSpansBelow | part11/models.py:193 | title spans of earlier postings start before a later posting |
| Lookup.TitleSpansSorted | part11/models.py:189-194 | postings in scan order give title spans in sorted order |
| Lookup.BuiltSearchForAgree | part11/models.py:39-65 | on an index built from documents with distinct ids, every document listed by the index-wide search carries exactly the per-document search's result, title spans included |
| Query.PerWord | part11/models.py:220-223 | one lookup per query word, of known documents only |
| Query.PerWordIsLookup | part11/models.py:222-223 | word k's lookup asks the index for the stemmed word |
| Query.Union | part11/models.py:238-243 | the "OR" step keeps every document of either side; a document on both sides gets the running result combined with the new one, a document on one side keeps that side's result |
| Query.Intersect | part11/models.py:244-252 | the "AND" step keeps exactly the documents on both sides, each with the running result combined with the new one |
| Query.MergeStep | part11/models.py:238-252 | no contract of its own: "OR" takes `Query.Union`, any other mode `Query.Intersect`, whose contracts state its meaning |
| Query.Step | part11/models.py:234-252 | an empty running map is replaced by the word's results; otherwise the keys are the union or the intersection |
| Query.Fold | part11/models.py:220-252 | no contract of its own: the word loop as written; `Query.OrFold`, `Query.AndFoldKeys`, `Query.AndWithinOr` and `Query.FoldTitled` state its meaning |
| Query.FoldFixed | part11/models.py:220-252 | no contract of its own: the word loop seeded by the first word only; `Query.OrFoldFixed`, `Query.AndFoldFixed` and `Query.FoldFixedTitled` state its meaning |
| Query.OrStep | part11/models.py:234-243 | one "OR" pass, re-seeding included, keeps a document when either side has it, with both sides' matches |
| Query.OrFold | part11/models.py:220-243 | under "OR" the result holds exactly the documents some word found, with every word's matches added up |
| Query.OrFoldFixed | part11/models.py:234-243 | under "OR" the re-seeding makes no difference |
| Query.AndFoldFixed | part11/models.py:244-252 | seeded by the first word only, "AND" keeps exactly the documents every word found, with their matches added up |
| Query.AndFoldKeys | part11/models.py:234-252 | as written, "AND" keeps only documents the last word found, and only ones "OR" would keep |
| Query.MatchSumNonNegative | part11/models.py:244-252 | the words' matches for a document add up to a non-negative count when each word's are non-negative |
| Query.AndAtMostSum | part11/models.py:234-252 | as written, "AND" never counts more matches for a document than all the words together |
| Query.AndWithinOr | part11/models.py:234-252 | every document "AND" keeps is kept by "OR", with at least as many matches |
| Query.SearchAndWithinOr | part11/models.py:214-252 | for any query on a searchable index, "AND" keeps only documents "OR" keeps, each with at most the matches "OR" counts |
| Query.FoldTitled | part11/models.py:220-252 | every result of the loop belongs to a known document, carries its title and is consistent |
| Query.FoldFixedTitled | part11/models.py:220-252 | the same holds for the loop seeded by the first word only |
| Query.StrLe | part11/models.py:257 | no contract of its own: Python's `<=` on strings, lexicographic by code point, a proper prefix first; `Query.StrLeTotal` and `Query.StrLeTrans` state that it is a total order |
| Query.StrLeTotal | part11/models.py:257 | any two titles are comparable |
| Query.StrLeTrans | part11/models.py:257 | title order is transitive |
| Query.InsertByTitle | part11/models.py:257 | inserting after every title not greater than its own keeps title order, adds exactly one result, and appends when no title is greater |
| Query.SortByTitle | part11/models.py:257 | `sorted(..., key=title)` gives a title-ordered permutation |
| Query.SortByTitleSorted | part11/models.py:257 | a list already in title order is left as it is |
| Query.WithTitleAppend | part11/models.py:257 | the results with one title in a joined list are those of the first part followed by those of the second |
| Query.InsertByTitleStable | part11/models.py:257 | inserting a result keeps the results of every title in order, and puts the new one after those with its title |
| Query.SortByTitleStable | part11/models.py:257 | `sorted(..., key=title)` is stable: the results with any one title come out in the order they went in |
| Query.MinOf | part11/models.py:256 | the least id of a non-empty set |
| Query.SortedIds | part11/models.py:256 | the ids of a map in strictly increasing order, each once |
| Query.ValuesById | part11/models.py:256 | the map's values, one per document: position k holds the value of the k-th smallest id, so each value appears once for every document that has it |
| Query.Listing | part11/models.py:256-257 | the listing is in title order, a permutation of the map's values, with known titles |
| Query.Search | part11/models.py:214-257 | `search` lists, in title order, the results of the loop as written, each titled after a known document |
| Query.SearchFixed | part11/models.py:214-257 | the same listing for the loop seeded by the first word only |
| Query.SearchOr | part11/models.py:214-243 | under "OR" a document is in the search's results exactly when the index returns it for some query word |
| Query.SearchFixedAnd | part11/models.py:214-252 | seeded by the first word only, "AND" keeps a document exactly when the index returns it for every query word |
| Query.ReseedCounterexample | part11/models.py:234-236 | a first word without hits is skipped by the loop as written, but empties the result of the corrected loop |

## Left out

- `normalize_token` and the Porter stemmer (lines 8-15): the stemmer is an external library. Both are folded into the uninterpreted parameter `stem`.
- `SearchResult.print` (lines 304-317) and the ANSI escape literals: output to a terminal. Markers are abstract pieces in one of the two styles.
- Parsing the document id from the title (line 24): ids are part of the `Sonnet` datatype.
- `LineMatch.copy` and `SearchResult.copy` (lines 74-75, 268-269) make shallow copies. So `combine_with` extends lists that the original results share (line 333), and a later combine can change an earlier result. The model has value semantics and does not reproduce this aliasing.
- The regular expression engine: `\S+` is a fixed predicate for Python's whitespace characters (`str.isspace`).
- Query.ValuesById: Python dicts keep insertion order; the model lists values by increasing id. So `sorted` by title, which is stable, orders results with equal titles by id, not by insertion order.
- Query.Search: its contract fixes the listing only up to the order of results with equal titles (it states the title order and the multiset).
- Lookup.IndexSearchFor: requires `Searchable`: every listed document is known, and every line posting names one of its lines. Without it, the source raises `KeyError` for an unknown document, raises `IndexError` for a line past the end, or reads a wrong line through a negative index. These paths are not modelled. The same holds for `Query.PerWord` and the `Query.Search*` members, which pass the requirement on. Every index built from documents with distinct ids is searchable (`Indexing.BuildSearchable`). With duplicate ids it need not be (`Indexing.DuplicateIdsUnsearchable`).
- Lookup.SonnetSearchFor: requires every posting's line number to name one of the document's lines (the source indexes `self.lines[ln - 1]`). An index built from documents with distinct ids meets this.
- Lookup.BuiltSearchForAgree, Indexing.BuildPostings, Indexing.CorpusSelect, Indexing.BuildWellFormed, Indexing.BuildSearchable, Indexing.BuildListOk, Indexing.BuildListsOrdered: assume distinct document ids. With duplicate ids, the id map keeps the last document and the postings of both are filed under one id. A posting of the earlier document can then name a line the kept document lacks, and `Index.search_for` would raise `IndexError` (`Indexing.DuplicateIdsUnsearchable`).
- `Sonnet.search_for` keeps title spans in posting order, while `Index.search_for` sorts them through `combine_with`. The two agree only because a well-formed index keeps every postings list in scan order; `Lookup.SearchForAgree` relies on that.

## Findings

| source | as written | input that shows it | evidently intended | confidence | as-written member | corrected member |
|---|---|---|---|---|---|---|
| part11/models.py:234-236 | In "AND" mode, an empty running map is replaced by the next word's results, so a word with no hits (or an intersection that became empty) is forgotten | query "zzz love" in "AND" mode, where "zzz" occurs nowhere: every document with "love" is listed | "AND" lists only documents that contain every query word, so this query lists nothing | not executed | Query.ReseedCounterexample | Query.SearchFixedAnd |

=== FILE: highlight.dfy ===
/** The span-merge-and-render part of `SearchResult.ansi_highlight`.
    Terminal escape sequences are replaced by abstract marker pieces, so the
    output is a sequence of characters interleaved with open/reset markers. */
module Highlight {
  import opened Spans

  /** The two highlight styles: black on yellow when the mode is "DEFAULT",
      bold bright green for any other mode. */
  datatype Style = YellowBackground | BoldGreen

  /** One piece of rendered output: a character of the text, the escape
      sequence that starts a highlight, or the one that resets it. */
  datatype Piece = Ch(c: char) | Open(style: Style) | Reset

  function StyleOf(mode: string): Style
  {
    if mode == "DEFAULT" then YellowBackground else BoldGreen
  }

  function Chars(s: string): (r: seq<Piece>)
    ensures |r| == |s|
    ensures forall k :: 0 <= k < |s| ==> r[k] == Ch(s[k])
  {
    seq(|s|, k requires 0 <= k < |s| => Ch(s[k]))
  }

  /** Python's normalisation of a slice bound against a length n. */
  function Clamp(i: int, n: nat): (r: nat)
    ensures r <= n
    ensures 0 <= i <= n ==> r == i
  {
    var j := if i < 0 then i + n else i;
    if j < 0 then 0 else if j > n then n else j
  }

  /** Python's `s[a:b]`, which never fails: out-of-range bounds are clamped,
      negative ones count from the end, and b <= a gives "". */
  function Slice(s: string, a: int, b: int): (r: string)
    ensures 0 <= a <= b <= |s| ==> r == s[a..b]
  {
    var lo := Clamp(a, |s|);
    var hi := Clamp(b, |s|);
    if lo < hi then s[lo..hi] else []
  }

  /** The output loop over the merged spans: the text between the previous
      span end i and the span start, then the marked span, then the rest. */
  function RenderFrom(text: string, i: int, merged: seq<Span>, style: Style): seq<Piece>
    decreases |merged|
  {
    if merged == [] then Chars(Slice(text, i, |text|))
    else
      Segment(text, i, merged[0], style) + RenderFrom(text, merged[0].end, merged[1..], style)
  }

  /** One step of the output loop: the unmarked text from i up to the span,
      then the span's text wrapped in markers. */
  function Segment(text: string, i: int, span: Span, style: Style): seq<Piece>
  {
    Chars(Slice(text, i, span.start)) + [Open(style)] + Chars(Slice(text, span.start, span.end)) + [Reset]
  }

  /** `ansi_highlight(text, spans, mode)`. */
  function Highlight(text: string, spans: seq<Span>, mode: string): seq<Piece>
  {
    if spans == [] then Chars(text)
    else RenderFrom(text, 0, Merge(spans), StyleOf(mode))
  }

  /** The characters of the output, with every marker deleted. */
  function Strip(out: seq<Piece>): string
  {
    if out == [] then []
    else if out[0].Ch? then [out[0].c] + Strip(out[1..])
    else Strip(out[1..])
  }

  /** For every character of the output, whether it sits between an open
      marker and the following reset. */
  function MarksFrom(out: seq<Piece>, inside: bool): seq<bool>
  {
    if out == [] then []
    else match out[0]
      case Ch(_) => [inside] + MarksFrom(out[1..], inside)
      case Open(_) => MarksFrom(out[1..], true)
      case Reset => MarksFrom(out[1..], false)
  }

  /** Whether a highlight is open after the whole of `out`. */
  function InsideAfter(out: seq<Piece>, inside: bool): bool
  {
    if out == [] then inside
    else match out[0]
      case Ch(_) => InsideAfter(out[1..], inside)
      case Open(_) => InsideAfter(out[1..], true)
      case Reset => InsideAfter(out[1..], false)
  }

  lemma {:induction false} StripAppend(a: seq<Piece>, b: seq<Piece>)
    ensures Strip(a + b) == Strip(a) + Strip(b)
  {
    if a == [] {
      assert a + b == b;
    } else {
      assert (a + b)[0] == a[0];
      assert (a + b)[1..] == a[1..] + b;
      StripAppend(a[1..], b);
    }
  }

  lemma {:induction false} StripChars(s: string)
    ensures Strip(Chars(s)) == s
  {
    if s != [] {
      assert Chars(s)[1..] == Chars(s[1..]);
      StripChars(s[1..]);
    }
  }

  lemma {:induction false} MarksAppend(a: seq<Piece>, b: seq<Piece>, inside: bool)
    ensures MarksFrom(a + b, inside) == MarksFrom(a, inside) + MarksFrom(b, InsideAfter(a, inside))
    ensures InsideAfter(a + b, inside) == InsideAfter(b, InsideAfter(a, inside))
  {
    if a == [] {
      assert a + b == b;
    } else {
      assert (a + b)[0] == a[0];
      assert (a + b)[1..] == a[1..] + b;
      match a[0]
      case Ch(_) => MarksAppend(a[1..], b, inside);
      case Open(_) => MarksAppend(a[1..], b, true);
      case Reset => MarksAppend(a[1..], b, false);
    }
  }

  lemma {:induction false} MarksChars(s: string, inside: bool)
    ensures |MarksFrom(Chars(s), inside)| == |s|
    ensures forall k :: 0 <= k < |s| ==> MarksFrom(Chars(s), inside)[k] == inside
    ensures InsideAfter(Chars(s), inside) == inside
  {
    if s != [] {
      assert Chars(s)[1..] == Chars(s[1..]);
      MarksChars(s[1..], inside);
    }
  }

  /** The spans after the first keep the shape the renderer relies on. */
  lemma SeparatedTail(merged: seq<Span>, n: int)
    requires Within(merged, n) && Separated(merged) && merged != []
    ensures Within(merged[1..], n) && Separated(merged[1..])
    ensures merged[1..] != [] ==> merged[0].end <= merged[1..][0].start
  {
    assert forall k :: 0 <= k < |merged[1..]| ==> merged[1..][k] == merged[k + 1];
    if |merged| > 1 {
      assert merged[0].end < merged[1].start;
    }
  }

  lemma SplitText(text: string, i: int, e: int)
    requires 0 <= i <= e <= |text|
    ensures text[i..] == text[i..e] + text[e..]
  {
  }

  lemma SegmentStrip(text: string, i: int, span: Span, style: Style)
    requires 0 <= i <= span.start <= span.end <= |text|
    ensures Strip(Segment(text, i, span, style)) == text[i..span.end]
  {
    var x, y := text[i..span.start], text[span.start..span.end];
    var a, b := Chars(x), Chars(y);
    assert Segment(text, i, span, style) == a + [Open(style)] + b + [Reset];
    StripChars(x);
    StripChars(y);
    StripAppend(a, [Open(style)]);
    StripAppend(a + [Open(style)], b);
    StripAppend(a + [Open(style)] + b, [Reset]);
    assert Strip([Open(style)]) == [] && Strip([Reset]) == [];
    SplitRange(text, i, span.start, span.end);
  }

  lemma SplitRange(text: string, i: int, m: int, e: int)
    requires 0 <= i <= m <= e <= |text|
    ensures text[i..e] == text[i..m] + text[m..e]
  {
  }

  /** Rendering from offset i reproduces text[i..] once the markers are
      deleted. */
  lemma {:induction false} RenderFromStrip(text: string, i: int, merged: seq<Span>, style: Style)
    requires 0 <= i <= |text|
    requires Within(merged, |text|) && Separated(merged)
    requires merged != [] ==> i <= merged[0].start
    ensures Strip(RenderFrom(text, i, merged, style)) == text[i..]
    decreases |merged|
  {
    if merged == [] {
      assert Slice(text, i, |text|) == text[i..];
      StripChars(text[i..]);
    } else {
      var e := merged[0].end;
      var seg, rest := Segment(text, i, merged[0], style), RenderFrom(text, e, merged[1..], style);
      assert RenderFrom(text, i, merged, style) == seg + rest;
      SeparatedTail(merged, |text|);
      RenderFromStrip(text, e, merged[1..], style);
      SegmentStrip(text, i, merged[0], style);
      StripAppend(seg, rest);
      SplitText(text, i, e);
    }
  }

  /** With every span inside the text, deleting the markers from the
      highlighted output gives back the text; with no spans the output is
      the text itself, unmarked. */
  lemma HighlightStrip(text: string, spans: seq<Span>, mode: string)
    requires Within(spans, |text|)
    ensures Strip(Highlight(text, spans, mode)) == text
    ensures spans == [] ==> Highlight(text, spans, mode) == Chars(text)
  {
    if spans == [] {
      StripChars(text);
    } else {
      var m := Merge(spans);
      MergeWithin(spans, |text|);
      RenderFromStrip(text, 0, m, StyleOf(mode));
    }
  }

  lemma SegmentMarks(text: string, i: int, span: Span, style: Style)
    requires 0 <= i <= span.start <= span.end <= |text|
    ensures InsideAfter(Segment(text, i, span, style), false) == false
    ensures |MarksFrom(Segment(text, i, span, style), false)| == span.end - i
    ensures forall k :: 0 <= k < span.end - i ==>
              MarksFrom(Segment(text, i, span, style), false)[k] == (span.start <= i + k)
  {
    var a := Chars(text[i..span.start]);
    var b := Chars(text[span.start..span.end]);
    assert Segment(text, i, span, style) == a + [Open(style)] + b + [Reset];
    MarksChars(text[i..span.start], false);
    MarksChars(text[span.start..span.end], true);
    MarksAppend(a, [Open(style)], false);
    MarksAppend(a + [Open(style)], b, false);
    MarksAppend(a + [Open(style)] + b, [Reset], false);
    assert MarksFrom([Open(style)], false) == [];
    assert MarksFrom([Reset], true) == [];
  }

  /** A position past the first of separated spans is covered by them iff it
      is covered by the others. */
  lemma CoversTail(merged: seq<Span>, x: int)
    requires Separated(merged) && merged != []
    ensures x < merged[0].start ==> !Covers(merged, x)
    ensures merged[0].end <= x ==> (Covers(merged, x) <==> Covers(merged[1..], x))
  {
    if Covers(merged, x) {
      var j :| 0 <= j < |merged| && merged[j].start <= x < merged[j].end;
      if j > 0 {
        assert merged[0].end < merged[j].start;
        assert merged[1..][j - 1] == merged[j];
      }
    }
    if Covers(merged[1..], x) {
      var j :| 0 <= j < |merged[1..]| && merged[1..][j].start <= x < merged[1..][j].end;
      assert merged[j + 1] == merged[1..][j];
    }
  }

  /** Rendering from offset i marks exactly the characters of text[i..] that
      a merged span covers. */
  lemma {:induction false} RenderFromMarks(text: string, i: int, merged: seq<Span>, style: Style)
    requires 0 <= i <= |text|
    requires Within(merged, |text|) && Separated(merged)
    requires merged != [] ==> i <= merged[0].start
    ensures InsideAfter(RenderFrom(text, i, merged, style), false) == false
    ensures |MarksFrom(RenderFrom(text, i, merged, style), false)| == |text| - i
    ensures forall k :: 0 <= k < |text| - i ==>
              (MarksFrom(RenderFrom(text, i, merged, style), false)[k] <==> Covers(merged, i + k))
    decreases |merged|
  {
    var out := RenderFrom(text, i, merged, style);
    if merged == [] {
      assert Slice(text, i, |text|) == text[i..];
      MarksChars(text[i..], false);
    } else {
      var s := merged[0].start;
      var e := merged[0].end;
      var seg := Segment(text, i, merged[0], style);
      var rest := RenderFrom(text, e, merged[1..], style);
      SeparatedTail(merged, |text|);
      RenderFromMarks(text, e, merged[1..], style);
      SegmentMarks(text, i, merged[0], style);
      MarksAppend(seg, rest, false);
      var ms := MarksFrom(out, false);
      assert ms == MarksFrom(seg, false) + MarksFrom(rest, false);
      forall k | 0 <= k < |text| - i
        ensures ms[k] <==> Covers(merged, i + k)
      {
        var x := i + k;
        CoversTail(merged, x);
        if x < e {
          assert ms[k] == MarksFrom(seg, false)[k];
          if s <= x { assert merged[0].start <= x < merged[0].end; }
        } else {
          assert ms[k] == MarksFrom(rest, false)[x - e];
        }
      }
    }
  }

  /** Exactly the characters covered by some input span are highlighted, so
      overlapping occurrences are never marked twice and nothing else is
      marked. */
  lemma HighlightMarks(text: string, spans: seq<Span>, mode: string)
    requires Within(spans, |text|)
    ensures |MarksFrom(Highlight(text, spans, mode), false)| == |text|
    ensures forall x :: 0 <= x < |text| ==>
              (MarksFrom(Highlight(text, spans, mode), false)[x] <==> Covers(spans, x))
  {
    if spans == [] {
      MarksChars(text, false);
    } else {
      var m := Merge(spans);
      MergeWithin(spans, |text|);
      RenderFromMarks(text, 0, m, StyleOf(mode));
      forall x | 0 <= x < |text| ensures Covers(m, x) <==> Covers(spans, x) {
        MergeCovers(spans, x);
      }
    }
  }
}

=== FILE: indexing.dfy ===
/** The inverted index of `Index.__init__` and `Index._add_token`: a map from
    stem to document id to the append-only list of postings of that stem in
    that document. The stemmer is an uninterpreted parameter. */
module Indexing {
  import opened Optional
  import opened Tokens

  /** One occurrence of a token: its line (None for the title, otherwise the
      1-based line number), its 0-based offset in that text, and the token as
      it appeared there. */
  datatype Posting = Posting(lineNo: Option<int>, position: nat, originalToken: string)

  /** A document: its identifying number, its title and its lines. */
  datatype Sonnet = Sonnet(id: int, title: string, lines: seq<string>)

  type Dictionary = map<string, map<int, seq<Posting>>>

  datatype Index = Index(sonnets: map<int, Sonnet>, dictionary: Dictionary)

  /** The postings of stem s in document d, or [] when there are none. */
  function PostingsOf(dict: Dictionary, s: string, d: int): seq<Posting>
  {
    if s in dict && d in dict[s] then dict[s][d] else []
  }

  /** `_add_token`: creates the inner map and the list when missing, then
      appends one posting. */
  function AddToken(dict: Dictionary, docId: int, s: string, lineNo: Option<int>, position: nat,
                    token: string): (r: Dictionary)
    ensures PostingsOf(r, s, docId) == PostingsOf(dict, s, docId) + [Posting(lineNo, position, token)]
    ensures forall s', d :: s' != s || d != docId ==> PostingsOf(r, s', d) == PostingsOf(dict, s', d)
    ensures r.Keys == dict.Keys + {s}
    ensures r[s].Keys == (if s in dict then dict[s].Keys else {}) + {docId}
    ensures forall s' :: s' in dict && s' != s ==> r[s'] == dict[s']
  {
    var postings := if s in dict then dict[s] else map[];
    var current := if docId in postings then postings[docId] else [];
    dict[s := postings[docId := current + [Posting(lineNo, position, token)]]]
  }

  /** One `_add_token` call of the indexing scan. */
  datatype Entry = Entry(docId: int, stem: string, posting: Posting)

  /** The `_add_token` calls for the tokens of one text: every token whose
      stem is non-empty, in token order. */
  function TextEntries(docId: int, stem: string -> string, lineNo: Option<int>, toks: seq<Token>)
    : seq<Entry>
  {
    if toks == [] then []
    else
      var s := stem(toks[0].text);
      (if s != "" then [Entry(docId, s, Posting(lineNo, toks[0].pos, toks[0].text))] else [])
        + TextEntries(docId, stem, lineNo, toks[1..])
  }

  /** The calls for a run of tokenized lines, the first of which has number
      `first`. */
  function LineEntries(docId: int, stem: string -> string, lineToks: seq<seq<Token>>, first: int)
    : seq<Entry>
  {
    if lineToks == [] then []
    else
      TextEntries(docId, stem, Some(first), lineToks[0])
        + LineEntries(docId, stem, lineToks[1..], first + 1)
  }

  /** The tokens of each line. */
  function LineTokens(lines: seq<string>): (r: seq<seq<Token>>)
    ensures |r| == |lines|
    ensures forall k :: 0 <= k < |lines| ==> r[k] == Tokenize(lines[k])
  {
    seq(|lines|, k requires 0 <= k < |lines| => Tokenize(lines[k]))
  }

  /** The calls for one document: its title, then its lines numbered from 1. */
  function SonnetEntries(doc: Sonnet, stem: string -> string): seq<Entry>
  {
    TextEntries(doc.id, stem, None, Tokenize(doc.title)) + LineEntries(doc.id, stem, LineTokens(doc.lines), 1)
  }

  /** The calls for the whole corpus, document by document. */
  function CorpusEntries(sonnets: seq<Sonnet>, stem: string -> string): seq<Entry>
  {
    if sonnets == [] then []
    else SonnetEntries(sonnets[0], stem) + CorpusEntries(sonnets[1..], stem)
  }

  /** Performs the calls in order. */
  function AddAll(dict: Dictionary, es: seq<Entry>): Dictionary
    decreases |es|
  {
    if es == [] then dict
    else
      var e := es[0];
      AddAll(AddToken(dict, e.docId, e.stem, e.posting.lineNo, e.posting.position,
                      e.posting.originalToken), es[1..])
  }

  /** `{sonnet.id: sonnet for sonnet in sonnets}`: a later document with the
      same id replaces an earlier one. */
  function SonnetMap(sonnets: seq<Sonnet>): map<int, Sonnet>
  {
    if sonnets == [] then map[]
    else
      var last := sonnets[|sonnets| - 1];
      SonnetMap(sonnets[..|sonnets| - 1])[last.id := last]
  }

  /** `Index(sonnets)`. */
  function Build(sonnets: seq<Sonnet>, stem: string -> string): Index
  {
    Index(SonnetMap(sonnets), AddAll(map[], CorpusEntries(sonnets, stem)))
  }

  /** The postings the calls in es add for stem s and document d, in order. */
  function Select(es: seq<Entry>, s: string, d: int): seq<Posting>
  {
    if es == [] then []
    else (if es[0].stem == s && es[0].docId == d then [es[0].posting] else []) + Select(es[1..], s, d)
  }

  // ---------------------------------------------------------------------------
  // Properties of the scan

  /** The posting list of each (stem, document) pair is the old list followed
      by exactly the postings the calls add for that pair, in call order;
      no posting is dropped or deduplicated. */
  lemma {:induction false} AddAllPostings(dict: Dictionary, es: seq<Entry>, s: string, d: int)
    ensures PostingsOf(AddAll(dict, es), s, d) == PostingsOf(dict, s, d) + Select(es, s, d)
    decreases |es|
  {
    if es != [] {
      var e := es[0];
      var dict' := AddToken(dict, e.docId, e.stem, e.posting.lineNo, e.posting.position,
                            e.posting.originalToken);
      AddAllPostings(dict', es[1..], s, d);
    }
  }

  /** A (stem, document) pair is present after the calls exactly when it was
      present before or some call adds a posting for it; a stem is present
      exactly when it was before or some call uses it. */
  lemma {:induction false} AddAllKeys(dict: Dictionary, es: seq<Entry>, s: string, d: int)
    ensures (s in AddAll(dict, es) && d in AddAll(dict, es)[s])
            <==> (s in dict && d in dict[s]) || Select(es, s, d) != []
    ensures s in AddAll(dict, es) <==> s in dict || exists i :: 0 <= i < |es| && es[i].stem == s
    decreases |es|
  {
    if es != [] {
      var e := es[0];
      var dict' := AddToken(dict, e.docId, e.stem, e.posting.lineNo, e.posting.position,
                            e.posting.originalToken);
      AddAllKeys(dict', es[1..], s, d);
      if exists i :: 0 <= i < |es[1..]| && es[1..][i].stem == s {
        var i :| 0 <= i < |es[1..]| && es[1..][i].stem == s;
        assert es[i + 1].stem == s;
      }
      if exists i :: 0 <= i < |es| && es[i].stem == s {
        var i :| 0 <= i < |es| && es[i].stem == s;
        if i > 0 { assert es[1..][i - 1].stem == s; }
      }
    }
  }

  lemma {:induction false} SelectAppend(a: seq<Entry>, b: seq<Entry>, s: string, d: int)
    ensures Select(a + b, s, d) == Select(a, s, d) + Select(b, s, d)
    decreases |a|
  {
    if a == [] {
      assert a + b == b;
    } else {
      assert (a + b)[0] == a[0];
      assert (a + b)[1..] == a[1..] + b;
      SelectAppend(a[1..], b, s, d);
    }
  }

  /** Every selected posting is the posting of a call for that pair. */
  lemma {:induction false} SelectMember(es: seq<Entry>, s: string, d: int, p: Posting)
    ensures p in Select(es, s, d) <==> Entry(d, s, p) in es
    decreases |es|
  {
    if es != [] {
      SelectMember(es[1..], s, d, p);
      assert es == [es[0]] + es[1..];
    }
  }

  // ---------------------------------------------------------------------------
  // Where postings come from

  /** p records an occurrence in doc of a token whose stem is s: a maximal
      non-whitespace run of the title (line None) or of line ln, 1 <= ln <=
      the number of lines, with a non-empty stem. */
  ghost predicate Occurrence(doc: Sonnet, stem: string -> string, s: string, p: Posting)
  {
    && s != ""
    && stem(p.originalToken) == s
    && match p.lineNo
       case None => MaximalRun(doc.title, Token(p.originalToken, p.position))
       case Some(ln) =>
         1 <= ln <= |doc.lines| && MaximalRun(doc.lines[ln - 1], Token(p.originalToken, p.position))
  }

  lemma {:induction false} TextEntriesMember(docId: int, stem: string -> string, lineNo: Option<int>,
                                             toks: seq<Token>, d: int, s: string, p: Posting)
    ensures Entry(d, s, p) in TextEntries(docId, stem, lineNo, toks)
            <==> d == docId && s != "" && stem(p.originalToken) == s && p.lineNo == lineNo
                 && Token(p.originalToken, p.position) in toks
    decreases |toks|
  {
    if toks != [] {
      TextEntriesMember(docId, stem, lineNo, toks[1..], d, s, p);
      assert toks == [toks[0]] + toks[1..];
    }
  }

  lemma {:induction false} LineEntriesMember(docId: int, stem: string -> string, lineToks: seq<seq<Token>>,
                                             first: int, d: int, s: string, p: Posting)
    ensures Entry(d, s, p) in LineEntries(docId, stem, lineToks, first)
            <==> d == docId && s != "" && stem(p.originalToken) == s && p.lineNo.Some?
                 && first <= p.lineNo.value < first + |lineToks|
                 && Token(p.originalToken, p.position) in lineToks[p.lineNo.value - first]
    decreases |lineToks|
  {
    if lineToks != [] {
      var rest := lineToks[1..];
      var e := Entry(d, s, p);
      var tok := Token(p.originalToken, p.position);
      var head := TextEntries(docId, stem, Some(first), lineToks[0]);
      var tail := LineEntries(docId, stem, rest, first + 1);
      assert LineEntries(docId, stem, lineToks, first) == head + tail;
      var base := d == docId && s != "" && stem(p.originalToken) == s;
      LineEntriesMember(docId, stem, rest, first + 1, d, s, p);
      TextEntriesMember(docId, stem, Some(first), lineToks[0], d, s, p);
      assert e in head <==> base && p.lineNo == Some(first) && tok in lineToks[0];
      if p.lineNo == Some(first) {
        LineEntriesAfter(docId, stem, rest, first + 1, e);
        assert e !in tail;
      } else {
        assert e !in head;
        if p.lineNo.Some? && first + 1 <= p.lineNo.value < first + |lineToks| {
          assert rest[p.lineNo.value - (first + 1)] == lineToks[p.lineNo.value - first];
        }
      }
    }
  }

  /** The calls of a text all carry that text's line number. */
  lemma {:induction false} TextEntriesLine(docId: int, stem: string -> string, lineNo: Option<int>,
                                           toks: seq<Token>, e: Entry)
    ensures e in TextEntries(docId, stem, lineNo, toks) ==> e.posting.lineNo == lineNo
    decreases |toks|
  {
    if toks != [] {
      TextEntriesLine(docId, stem, lineNo, toks[1..], e);
    }
  }

  /** The calls for lines numbered from `first` carry line numbers from `first` on. */
  lemma {:induction false} LineEntriesAfter(docId: int, stem: string -> string, lineToks: seq<seq<Token>>,
                                            first: int, e: Entry)
    ensures e in LineEntries(docId, stem, lineToks, first) ==>
              e.posting.lineNo.Some? && first <= e.posting.lineNo.value
    decreases |lineToks|
  {
    if lineToks != [] {
      TextEntriesLine(docId, stem, Some(first), lineToks[0], e);
      LineEntriesAfter(docId, stem, lineToks[1..], first + 1, e);
    }
  }

  /** The scan of a document makes a call for (s, p) exactly when p is an
      occurrence in that document of a token with stem s. */
  lemma SonnetEntriesMember(doc: Sonnet, stem: string -> string, d: int, s: string, p: Posting)
    ensures Entry(d, s, p) in SonnetEntries(doc, stem) <==> d == doc.id && Occurrence(doc, stem, s, p)
  {
    var e := Entry(d, s, p);
    var lineToks := LineTokens(doc.lines);
    var head := TextEntries(doc.id, stem, None, Tokenize(doc.title));
    var tail := LineEntries(doc.id, stem, lineToks, 1);
    assert SonnetEntries(doc, stem) == head + tail;
    if p.lineNo.None? {
      LineEntriesAfter(doc.id, stem, lineToks, 1, e);
      TitleEntryMember(doc, stem, d, s, p);
    } else {
      TextEntriesLine(doc.id, stem, None, Tokenize(doc.title), e);
      LineEntryMember(doc, stem, d, s, p);
    }
  }

  lemma TitleEntryMember(doc: Sonnet, stem: string -> string, d: int, s: string, p: Posting)
    requires p.lineNo.None?
    ensures Entry(d, s, p) in TextEntries(doc.id, stem, None, Tokenize(doc.title))
            <==> d == doc.id && Occurrence(doc, stem, s, p)
  {
    TextEntriesMember(doc.id, stem, None, Tokenize(doc.title), d, s, p);
    TokenizeComplete(doc.title, Token(p.originalToken, p.position));
  }

  lemma LineEntryMember(doc: Sonnet, stem: string -> string, d: int, s: string, p: Posting)
    requires p.lineNo.Some?
    ensures Entry(d, s, p) in LineEntries(doc.id, stem, LineTokens(doc.lines), 1)
            <==> d == doc.id && Occurrence(doc, stem, s, p)
  {
    var lineToks := LineTokens(doc.lines);
    var ln := p.lineNo.value;
    LineEntriesMember(doc.id, stem, lineToks, 1, d, s, p);
    if 1 <= ln <= |doc.lines| {
      TokenizeComplete(doc.lines[ln - 1], Token(p.originalToken, p.position));
      assert lineToks[ln - 1] == Tokenize(doc.lines[ln - 1]);
    }
  }

  ghost predicate DistinctIds(sonnets: seq<Sonnet>)
  {
    forall i, j :: 0 <= i < j < |sonnets| ==> sonnets[i].id != sonnets[j].id
  }

  lemma {:induction false} CorpusEntriesMember(sonnets: seq<Sonnet>, stem: string -> string, e: Entry)
    ensures e in CorpusEntries(sonnets, stem)
            <==> exists k :: 0 <= k < |sonnets| && e in SonnetEntries(sonnets[k], stem)
    decreases |sonnets|
  {
    if sonnets != [] {
      CorpusEntriesMember(sonnets[1..], stem, e);
      if exists k :: 0 <= k < |sonnets| && e in SonnetEntries(sonnets[k], stem) {
        var k :| 0 <= k < |sonnets| && e in SonnetEntries(sonnets[k], stem);
        if k > 0 { assert sonnets[1..][k - 1] == sonnets[k]; }
      }
      if exists k :: 0 <= k < |sonnets[1..]| && e in SonnetEntries(sonnets[1..][k], stem) {
        var k :| 0 <= k < |sonnets[1..]| && e in SonnetEntries(sonnets[1..][k], stem);
        assert sonnets[k + 1] == sonnets[1..][k];
      }
    }
  }

  lemma {:induction false} SelectNone(es: seq<Entry>, s: string, d: int)
    requires forall i :: 0 <= i < |es| ==> es[i].docId != d
    ensures Select(es, s, d) == []
    decreases |es|
  {
    if es != [] {
      SelectNone(es[1..], s, d);
    }
  }

  lemma SonnetEntriesDoc(doc: Sonnet, stem: string -> string)
    ensures forall i :: 0 <= i < |SonnetEntries(doc, stem)| ==> SonnetEntries(doc, stem)[i].docId == doc.id
  {
    var es := SonnetEntries(doc, stem);
    forall i | 0 <= i < |es| ensures es[i].docId == doc.id {
      var e := es[i];
      SonnetEntriesMember(doc, stem, e.docId, e.stem, e.posting);
      assert Entry(e.docId, e.stem, e.posting) == e;
    }
  }

  /** With distinct ids only the scan of document k contributes postings for
      its id; an id of no document receives none. */
  lemma {:induction false} CorpusSelect(sonnets: seq<Sonnet>, stem: string -> string, s: string, d: int)
    requires DistinctIds(sonnets)
    ensures forall k :: 0 <= k < |sonnets| && sonnets[k].id == d ==>
              Select(CorpusEntries(sonnets, stem), s, d) == Select(SonnetEntries(sonnets[k], stem), s, d)
    ensures (forall k :: 0 <= k < |sonnets| ==> sonnets[k].id != d) ==>
              Select(CorpusEntries(sonnets, stem), s, d) == []
    decreases |sonnets|
  {
    if forall k :: 0 <= k < |sonnets| ==> sonnets[k].id != d {
      CorpusSelectNone(sonnets, stem, s, d);
    }
    if sonnets != [] {
      var rest := sonnets[1..];
      DistinctTail(sonnets);
      CorpusSelect(rest, stem, s, d);
      var head := SonnetEntries(sonnets[0], stem);
      SelectAppend(head, CorpusEntries(rest, stem), s, d);
      if sonnets[0].id != d {
        SonnetEntriesDoc(sonnets[0], stem);
        SelectNone(head, s, d);
      } else {
        CorpusSelectNone(rest, stem, s, d);
      }
      forall k | 0 <= k < |sonnets| && sonnets[k].id == d
        ensures Select(CorpusEntries(sonnets, stem), s, d) == Select(SonnetEntries(sonnets[k], stem), s, d)
      {
        if k > 0 {
          assert rest[k - 1] == sonnets[k];
        }
      }
    }
  }

  /** The documents after the first have distinct ids, none of them the
      first's. */
  lemma DistinctTail(sonnets: seq<Sonnet>)
    requires DistinctIds(sonnets) && sonnets != []
    ensures DistinctIds(sonnets[1..])
    ensures forall k :: 0 <= k < |sonnets[1..]| ==> sonnets[1..][k].id != sonnets[0].id
  {
    var rest := sonnets[1..];
    forall i, j | 0 <= i < j < |rest| ensures rest[i].id != rest[j].id {
      assert rest[i] == sonnets[i + 1] && rest[j] == sonnets[j + 1];
    }
    forall k | 0 <= k < |rest| ensures rest[k].id != sonnets[0].id {
      assert rest[k] == sonnets[k + 1];
    }
  }

  /** The id map holds every document's id; with distinct ids each id maps
      to its own document. */
  lemma {:induction false} SonnetMapContents(sonnets: seq<Sonnet>)
    ensures forall d :: d in SonnetMap(sonnets) <==> exists k :: 0 <= k < |sonnets| && sonnets[k].id == d
    ensures forall d :: d in SonnetMap(sonnets) ==> SonnetMap(sonnets)[d].id == d
    ensures DistinctIds(sonnets) ==>
              forall k :: 0 <= k < |sonnets| ==> SonnetMap(sonnets)[sonnets[k].id] == sonnets[k]
    decreases |sonnets|
  {
    if sonnets != [] {
      var init := sonnets[..|sonnets| - 1];
      SonnetMapContents(init);
      assert forall k :: 0 <= k < |init| ==> init[k] == sonnets[k];
      if DistinctIds(sonnets) {
        assert DistinctIds(init);
      }
    }
  }

  // ---------------------------------------------------------------------------
  // Scan order

  /** Where a posting sits in the scan: the title counts as line 0. */
  function LineKey(p: Posting): int
  {
    match p.lineNo
    case None => 0
    case Some(ln) => ln
  }

  /** p is scanned strictly before q. */
  predicate Before(p: Posting, q: Posting)
  {
    LineKey(p) < LineKey(q) || (LineKey(p) == LineKey(q) && p.position < q.position)
  }

  ghost predicate ScanOrdered(ps: seq<Posting>)
  {
    forall i, j :: 0 <= i < j < |ps| ==> Before(ps[i], ps[j])
  }

  ghost predicate EntriesOrdered(es: seq<Entry>)
  {
    forall i, j :: 0 <= i < j < |es| ==> Before(es[i].posting, es[j].posting)
  }

  lemma OrderedAppend(a: seq<Entry>, b: seq<Entry>)
    requires EntriesOrdered(a) && EntriesOrdered(b)
    requires forall i, j :: 0 <= i < |a| && 0 <= j < |b| ==> Before(a[i].posting, b[j].posting)
    ensures EntriesOrdered(a + b)
  {
    forall i, j | 0 <= i < j < |a + b| ensures Before((a + b)[i].posting, (a + b)[j].posting) {
      if j < |a| {
        assert (a + b)[i] == a[i] && (a + b)[j] == a[j];
      } else if i < |a| {
        assert (a + b)[i] == a[i] && (a + b)[j] == b[j - |a|];
      } else {
        assert (a + b)[i] == b[i - |a|] && (a + b)[j] == b[j - |a|];
      }
    }
  }

  /** Tokens in increasing offset order, none overlapping the next. */
  ghost predicate TokensIncreasing(toks: seq<Token>)
  {
    forall k, l :: 0 <= k < l < |toks| ==> End(toks[k]) < toks[l].pos
  }

  /** The calls for one text carry its line number and strictly increasing
      offsets, each at least the first token's offset. */
  lemma {:induction false} TextEntriesOrdered(docId: int, stem: string -> string, lineNo: Option<int>,
                                              toks: seq<Token>)
    requires TokensIncreasing(toks)
    ensures EntriesOrdered(TextEntries(docId, stem, lineNo, toks))
    ensures forall i :: 0 <= i < |TextEntries(docId, stem, lineNo, toks)| ==>
              TextEntries(docId, stem, lineNo, toks)[i].posting.lineNo == lineNo
              && toks[0].pos <= TextEntries(docId, stem, lineNo, toks)[i].posting.position
    decreases |toks|
  {
    if toks != [] {
      var rest := toks[1..];
      var tail := TextEntries(docId, stem, lineNo, rest);
      TextEntriesOrdered(docId, stem, lineNo, rest);
      var s := stem(toks[0].text);
      var head := if s != "" then [Entry(docId, s, Posting(lineNo, toks[0].pos, toks[0].text))] else [];
      if rest != [] {
        assert End(toks[0]) < toks[1].pos;
      }
      OrderedAppend(head, tail);
    }
  }

  /** The calls for a run of lines carry line numbers at least `first`, in
      scan order. */
  lemma {:induction false} LineEntriesOrdered(docId: int, stem: string -> string, lineToks: seq<seq<Token>>,
                                              first: int)
    requires forall j :: 0 <= j < |lineToks| ==> TokensIncreasing(lineToks[j])
    ensures EntriesOrdered(LineEntries(docId, stem, lineToks, first))
    ensures forall i :: 0 <= i < |LineEntries(docId, stem, lineToks, first)| ==>
              LineEntries(docId, stem, lineToks, first)[i].posting.lineNo.Some?
              && first <= LineEntries(docId, stem, lineToks, first)[i].posting.lineNo.value
    decreases |lineToks|
  {
    if lineToks != [] {
      var head := TextEntries(docId, stem, Some(first), lineToks[0]);
      var tail := LineEntries(docId, stem, lineToks[1..], first + 1);
      assert TokensIncreasing(lineToks[0]);
      TextEntriesOrdered(docId, stem, Some(first), lineToks[0]);
      assert forall j :: 0 <= j < |lineToks[1..]| ==> lineToks[1..][j] == lineToks[j + 1];
      LineEntriesOrdered(docId, stem, lineToks[1..], first + 1);
      OrderedAppend(head, tail);
    }
  }

  /** The scan of a document is in scan order: title first, then each line
      in turn, each left to right. */
  lemma SonnetEntriesOrdered(doc: Sonnet, stem: string -> string)
    ensures EntriesOrdered(SonnetEntries(doc, stem))
  {
    var lineToks := LineTokens(doc.lines);
    TextEntriesOrdered(doc.id, stem, None, Tokenize(doc.title));
    LineEntriesOrdered(doc.id, stem, lineToks, 1);
    OrderedAppend(TextEntries(doc.id, stem, None, Tokenize(doc.title)),
                  LineEntries(doc.id, stem, lineToks, 1));
  }

  lemma {:induction false} SelectOrdered(es: seq<Entry>, s: string, d: int)
    requires EntriesOrdered(es)
    ensures ScanOrdered(Select(es, s, d))
    decreases |es|
  {
    if es != [] {
      SelectOrdered(es[1..], s, d);
      var tail := Select(es[1..], s, d);
      forall j | 0 <= j < |tail| ensures Before(es[0].posting, tail[j]) {
        SelectMember(es[1..], s, d, tail[j]);
        var i :| 0 <= i < |es[1..]| && es[1..][i] == Entry(d, s, tail[j]);
        assert es[i + 1] == es[1..][i];
      }
    }
  }

  // ---------------------------------------------------------------------------
  // The built index

  /** What `Index.search_for` needs to run without error: every listed
      document exists, and every line posting names a line of it. */
  ghost predicate Searchable(idx: Index)
  {
    forall s, d :: s in idx.dictionary && d in idx.dictionary[s] ==>
      && d in idx.sonnets
      && (forall p :: p in idx.dictionary[s][d] ==> LineOk(idx.sonnets[d], p))
  }

  /** The invariant every built index keeps: it is searchable, each document
      is filed under its own id, no empty stem is indexed, and every listed
      document has at least one posting, its list in scan order. */
  ghost predicate WellFormed(idx: Index)
  {
    && Searchable(idx)
    && (forall d :: d in idx.sonnets ==> idx.sonnets[d].id == d)
    && "" !in idx.dictionary
    && forall s, d :: s in idx.dictionary && d in idx.dictionary[s] ==>
         && |idx.dictionary[s][d]| > 0
         && ScanOrdered(idx.dictionary[s][d])
  }

  /** A line posting names an existing line of doc. */
  predicate LineOk(doc: Sonnet, p: Posting)
  {
    p.lineNo.Some? ==> 1 <= p.lineNo.value <= |doc.lines|
  }

  /** With distinct ids, the postings of stem s in document k are exactly the
      occurrences in that document of tokens with stem s (never an empty
      stem; title postings have no line number; line postings name an
      existing line), each once, in scan order. */
  lemma BuildPostings(sonnets: seq<Sonnet>, stem: string -> string, s: string, k: int, p: Posting)
    requires DistinctIds(sonnets) && 0 <= k < |sonnets|
    ensures p in PostingsOf(Build(sonnets, stem).dictionary, s, sonnets[k].id)
            <==> Occurrence(sonnets[k], stem, s, p)
    ensures ScanOrdered(PostingsOf(Build(sonnets, stem).dictionary, s, sonnets[k].id))
  {
    var d := sonnets[k].id;
    var es := CorpusEntries(sonnets, stem);
    AddAllPostings(map[], es, s, d);
    CorpusSelect(sonnets, stem, s, d);
    SelectMember(SonnetEntries(sonnets[k], stem), s, d, p);
    SonnetEntriesMember(sonnets[k], stem, d, s, p);
    SonnetEntriesOrdered(sonnets[k], stem);
    SelectOrdered(SonnetEntries(sonnets[k], stem), s, d);
  }

  /** A number that is the id of no document has no postings. */
  lemma BuildUnknownId(sonnets: seq<Sonnet>, stem: string -> string, s: string, d: int)
    requires forall k :: 0 <= k < |sonnets| ==> sonnets[k].id != d
    ensures PostingsOf(Build(sonnets, stem).dictionary, s, d) == []
  {
    AddAllPostings(map[], CorpusEntries(sonnets, stem), s, d);
    CorpusSelectNone(sonnets, stem, s, d);
  }

  lemma {:induction false} CorpusSelectNone(sonnets: seq<Sonnet>, stem: string -> string, s: string, d: int)
    requires forall k :: 0 <= k < |sonnets| ==> sonnets[k].id != d
    ensures Select(CorpusEntries(sonnets, stem), s, d) == []
    decreases |sonnets|
  {
    if sonnets != [] {
      assert forall k :: 0 <= k < |sonnets[1..]| ==> sonnets[1..][k] == sonnets[k + 1];
      CorpusSelectNone(sonnets[1..], stem, s, d);
      SonnetEntriesDoc(sonnets[0], stem);
      SelectNone(SonnetEntries(sonnets[0], stem), s, d);
      SelectAppend(SonnetEntries(sonnets[0], stem), CorpusEntries(sonnets[1..], stem), s, d);
    }
  }

  /** An id with postings in the built index belongs to some document. */
  lemma BuildKnownId(sonnets: seq<Sonnet>, stem: string -> string, s: string, d: int)
    requires PostingsOf(Build(sonnets, stem).dictionary, s, d) != []
    ensures exists k :: 0 <= k < |sonnets| && sonnets[k].id == d
  {
    if !exists k :: 0 <= k < |sonnets| && sonnets[k].id == d {
      BuildUnknownId(sonnets, stem, s, d);
    }
  }

  /** The built index lists a document under a stem only with postings that
      are in scan order and name lines of that document. */
  lemma BuildListOk(sonnets: seq<Sonnet>, stem: string -> string, s: string, d: int)
    requires DistinctIds(sonnets)
    requires s in Build(sonnets, stem).dictionary && d in Build(sonnets, stem).dictionary[s]
    ensures var idx := Build(sonnets, stem);
            && d in idx.sonnets
            && |idx.dictionary[s][d]| > 0
            && (forall p :: p in idx.dictionary[s][d] ==> LineOk(idx.sonnets[d], p))
            && ScanOrdered(idx.dictionary[s][d])
  {
    var idx := Build(sonnets, stem);
    var es := CorpusEntries(sonnets, stem);
    SonnetMapContents(sonnets);
    AddAllKeys(map[], es, s, d);
    AddAllPostings(map[], es, s, d);
    assert PostingsOf(idx.dictionary, s, d) == idx.dictionary[s][d];
    BuildKnownId(sonnets, stem, s, d);
    var k :| 0 <= k < |sonnets| && sonnets[k].id == d;
    BuildPostings(sonnets, stem, s, k, Posting(None, 0, ""));
    forall p | p in idx.dictionary[s][d] ensures LineOk(idx.sonnets[d], p) {
      BuildPostings(sonnets, stem, s, k, p);
    }
  }

  /** The built index has no empty stem: `_add_token` is called only for
      tokens whose stem is non-empty. */
  lemma BuildNoEmptyStem(sonnets: seq<Sonnet>, stem: string -> string)
    ensures "" !in Build(sonnets, stem).dictionary
  {
    var es := CorpusEntries(sonnets, stem);
    AddAllKeys(map[], es, "", 0);
    if "" in Build(sonnets, stem).dictionary {
      var i :| 0 <= i < |es| && es[i].stem == "";
      var e := es[i];
      CorpusEntriesMember(sonnets, stem, e);
      var k :| 0 <= k < |sonnets| && e in SonnetEntries(sonnets[k], stem);
      SonnetEntriesMember(sonnets[k], stem, e.docId, e.stem, e.posting);
    }
  }

  /** An index built from documents with distinct ids can be searched. */
  lemma BuildSearchable(sonnets: seq<Sonnet>, stem: string -> string)
    requires DistinctIds(sonnets)
    ensures Searchable(Build(sonnets, stem))
  {
    var idx := Build(sonnets, stem);
    forall s, d | s in idx.dictionary && d in idx.dictionary[s]
      ensures d in idx.sonnets
      ensures forall p :: p in idx.dictionary[s][d] ==> LineOk(idx.sonnets[d], p)
    {
      BuildListOk(sonnets, stem, s, d);
    }
  }

  /** Every list of an index built from documents with distinct ids is
      non-empty and in scan order. */
  lemma BuildListsOrdered(sonnets: seq<Sonnet>, stem: string -> string)
    requires DistinctIds(sonnets)
    ensures var idx := Build(sonnets, stem);
            forall s, d :: s in idx.dictionary && d in idx.dictionary[s] ==>
              |idx.dictionary[s][d]| > 0 && ScanOrdered(idx.dictionary[s][d])
  {
    var idx := Build(sonnets, stem);
    forall s, d | s in idx.dictionary && d in idx.dictionary[s]
      ensures |idx.dictionary[s][d]| > 0 && ScanOrdered(idx.dictionary[s][d])
    {
      BuildListOk(sonnets, stem, s, d);
    }
  }

  /** An index built from documents with distinct ids is well formed. */
  lemma BuildWellFormed(sonnets: seq<Sonnet>, stem: string -> string)
    requires DistinctIds(sonnets)
    ensures WellFormed(Build(sonnets, stem))
  {
    SonnetMapContents(sonnets);
    BuildNoEmptyStem(sonnets, stem);
    BuildSearchable(sonnets, stem);
    BuildListsOrdered(sonnets, stem);
  }

  /** Without distinct ids the built index need not be searchable: two
      documents with one id file their postings under it, the id map keeps
      the second, and a posting of the first may name a line the second
      lacks. */
  lemma DuplicateIdsUnsearchable(first: Sonnet, second: Sonnet, stem: string -> string, s: string, p: Posting)
    requires first.id == second.id
    requires Occurrence(first, stem, s, p) && p.lineNo.Some? && p.lineNo.value > |second.lines|
    ensures !Searchable(Build([first, second], stem))
  {
    var sonnets := [first, second];
    FirstPosted(first, second, stem, s, p);
    assert sonnets[..1] == [first];
    assert SonnetMap(sonnets)[first.id] == second;
    assert !LineOk(second, p);
  }

  /** An occurrence in the first of two documents is posted under its id. */
  lemma FirstPosted(first: Sonnet, second: Sonnet, stem: string -> string, s: string, p: Posting)
    requires Occurrence(first, stem, s, p)
    ensures var dict := Build([first, second], stem).dictionary;
            s in dict && first.id in dict[s] && p in dict[s][first.id]
  {
    var sonnets := [first, second];
    var d := first.id;
    var es := CorpusEntries(sonnets, stem);
    SonnetEntriesMember(first, stem, d, s, p);
    assert sonnets[1..] == [second];
    assert es == SonnetEntries(first, stem) + CorpusEntries([second], stem);
    SelectMember(es, s, d, p);
    AddAllPostings(map[], es, s, d);
    AddAllKeys(map[], es, s, d);
  }
}

=== FILE: lookup.dfy ===
/** Per-stem lookup: `Index.search_for` and `Sonnet.search_for`. */
module Lookup {
  import opened Optional
  import opened Spans
  import opened Indexing
  import opened Results

  /** The span of the token a posting records. */
  function SpanOf(p: Posting): Span
  {
    Span(p.position, p.position + |p.originalToken|)
  }

  ghost predicate AllLineOk(doc: Sonnet, ps: seq<Posting>)
  {
    forall i :: 0 <= i < |ps| ==> LineOk(doc, ps[i])
  }

  /** The spans of the title postings, in posting order. */
  function TitleSpans(ps: seq<Posting>): seq<Span>
  {
    if ps == [] then []
    else
      var p := ps[|ps| - 1];
      TitleSpans(ps[..|ps| - 1]) + (if p.lineNo.None? then [SpanOf(p)] else [])
  }

  /** The spans of the postings on line L, in posting order. */
  function LineSpans(ps: seq<Posting>, L: int): seq<Span>
  {
    if ps == [] then []
    else
      var p := ps[|ps| - 1];
      LineSpans(ps[..|ps| - 1], L) + (if p.lineNo == Some(L) then [SpanOf(p)] else [])
  }

  /** What a lookup result holds for line L: the line's text and one span per
      posting on that line, or nothing when no posting is on it. */
  function LineFor(doc: Sonnet, ps: seq<Posting>, L: int): Option<LineMatch>
  {
    if 1 <= L <= |doc.lines| && LineSpans(ps, L) != [] then
      Some(LineMatch(L, doc.lines[L - 1], LineSpans(ps, L)))
    else None
  }

  lemma {:induction false} LineSpansOk(doc: Sonnet, ps: seq<Posting>, L: int)
    requires AllLineOk(doc, ps)
    ensures LineSpans(ps, L) != [] ==> 1 <= L <= |doc.lines|
    decreases |ps|
  {
    if ps != [] {
      LineSpansOk(doc, ps[..|ps| - 1], L);
    }
  }

  /** The one-match result `Index.search_for` builds for a single posting. */
  function Single(doc: Sonnet, p: Posting): SearchResult
    requires LineOk(doc, p)
  {
    match p.lineNo
    case None => SearchResult(doc.title, [SpanOf(p)], [], 1)
    case Some(ln) => SearchResult(doc.title, [], [LineMatch(ln, doc.lines[ln - 1], [SpanOf(p)])], 1)
  }

  lemma SingleShape(doc: Sonnet, p: Posting)
    requires LineOk(doc, p)
    ensures Single(doc, p).title == doc.title
    ensures Consistent(Single(doc, p)) && Single(doc, p).matches == 1
    ensures Single(doc, p).titleSpans == TitleSpans([p])
    ensures forall L :: Find(Single(doc, p).lineMatches, L) == LineFor(doc, [p], L)
  {
    OneTitlePosting(p);
    match p.lineNo
    case None =>
      forall L ensures Find(Single(doc, p).lineMatches, L) == LineFor(doc, [p], L) {
        OneLinePosting(p, L);
      }
    case Some(ln) =>
      var lm := LineMatch(ln, doc.lines[ln - 1], [SpanOf(p)]);
      assert [lm][1..] == [];
      assert SpanTotal([lm]) == 1;
      forall L ensures Find(Single(doc, p).lineMatches, L) == LineFor(doc, [p], L) {
        OneLinePosting(p, L);
      }
  }

  /** A single title posting gives one title span; a line posting none. */
  lemma OneTitlePosting(p: Posting)
    ensures TitleSpans([p]) == (if p.lineNo.None? then [SpanOf(p)] else [])
  {
    assert [p][..0] == [];
  }

  /** A single posting gives one span on its own line and none elsewhere. */
  lemma OneLinePosting(p: Posting, L: int)
    ensures LineSpans([p], L) == (if p.lineNo == Some(L) then [SpanOf(p)] else [])
  {
    assert [p][..0] == [];
  }

  /** Adding one posting at the end joins its line match onto the others'. */
  lemma LineForStep(doc: Sonnet, ps: seq<Posting>, L: int)
    requires |ps| > 0 && AllLineOk(doc, ps)
    ensures LineFor(doc, ps, L) == Join(LineFor(doc, ps[..|ps| - 1], L), LineFor(doc, [ps[|ps| - 1]], L))
  {
    var init, p := ps[..|ps| - 1], ps[|ps| - 1];
    OneLinePosting(p, L);
    assert AllLineOk(doc, init) by {
      forall i | 0 <= i < |init| ensures LineOk(doc, init[i]) {
        assert init[i] == ps[i];
      }
    }
    assert LineOk(doc, p);
    LineSpansOk(doc, init, L);
    assert LineSpans(ps, L) == LineSpans(init, L) + LineSpans([p], L);
    if p.lineNo == Some(L) {
      assert LineFor(doc, [p], L) == Some(LineMatch(L, doc.lines[L - 1], [SpanOf(p)]));
    } else {
      assert LineSpans(ps, L) == LineSpans(init, L);
      assert LineFor(doc, [p], L) == None;
    }
  }

  lemma FoldStep(doc: Sonnet, ps: seq<Posting>, acc: SearchResult)
    requires |ps| > 1 && AllLineOk(doc, ps)
    requires acc.title == doc.title
    requires Consistent(acc) && acc.matches == |ps| - 1
    requires multiset(acc.titleSpans) == multiset(TitleSpans(ps[..|ps| - 1]))
    requires forall L :: Find(acc.lineMatches, L) == LineFor(doc, ps[..|ps| - 1], L)
    ensures var r := Combine(acc, Single(doc, ps[|ps| - 1]));
            && r.title == doc.title
            && Consistent(r) && r.matches == |ps|
            && multiset(r.titleSpans) == multiset(TitleSpans(ps))
            && forall L :: Find(r.lineMatches, L) == LineFor(doc, ps, L)
  {
    var p := ps[|ps| - 1];
    var single := Single(doc, p);
    SingleShape(doc, p);
    var r := Combine(acc, single);
    forall L ensures Find(r.lineMatches, L) == LineFor(doc, ps, L) {
      LineForStep(doc, ps, L);
    }
  }

  /** The loop of `Index.search_for` over one document's postings: the first
      posting's result, combined in turn with each later one's. */
  function FoldPostings(doc: Sonnet, ps: seq<Posting>): (r: SearchResult)
    requires |ps| > 0 && AllLineOk(doc, ps)
    ensures r.title == doc.title
    ensures Consistent(r) && r.matches == |ps|
    ensures Sorted(r.titleSpans) && multiset(r.titleSpans) == multiset(TitleSpans(ps))
    ensures forall L :: Find(r.lineMatches, L) == LineFor(doc, ps, L)
    decreases |ps|
  {
    var p := ps[|ps| - 1];
    if |ps| == 1 then
      SingleShape(doc, p);
      assert [p] == ps;
      Single(doc, p)
    else
      var acc := FoldPostings(doc, ps[..|ps| - 1]);
      FoldStep(doc, ps, acc);
      Combine(acc, Single(doc, p))
  }

  /** `Index.search_for(token)`: the token is stemmed again; an empty stem or
      one absent from the index gives no documents, otherwise each document
      with postings for the stem gets the result folded from them. */
  function IndexSearchFor(idx: Index, stem: string -> string, token: string): (r: map<int, SearchResult>)
    requires Searchable(idx)
    ensures stem(token) == "" || stem(token) !in idx.dictionary ==> r == map[]
    ensures stem(token) != "" && stem(token) in idx.dictionary ==>
              forall d :: d in r <==> d in idx.dictionary[stem(token)] && |idx.dictionary[stem(token)][d]| > 0
    ensures forall d :: d in r ==>
              var ps := PostingsOf(idx.dictionary, stem(token), d);
              && d in idx.sonnets
              && r[d].title == idx.sonnets[d].title
              && Consistent(r[d])
              && r[d].matches == |ps| > 0
              && Sorted(r[d].titleSpans)
              && multiset(r[d].titleSpans) == multiset(TitleSpans(ps))
              && forall L :: Find(r[d].lineMatches, L) == LineFor(idx.sonnets[d], ps, L)
  {
    var key := stem(token);
    if key == "" || key !in idx.dictionary then map[]
    else
      var postings := idx.dictionary[key];
      map d | d in postings && |postings[d]| > 0 :: FoldPostings(idx.sonnets[d], postings[d])
  }

  /** The line matches `Sonnet.search_for` groups from the postings: spans
      per line in posting order, lines in increasing order. */
  function GroupLines(doc: Sonnet, ps: seq<Posting>): (r: seq<LineMatch>)
    requires AllLineOk(doc, ps)
    ensures LinesIncreasing(r)
    ensures forall L :: Find(r, L) == LineFor(doc, ps, L)
    ensures SpanTotal(r) + |TitleSpans(ps)| == |ps|
    decreases |ps|
  {
    if ps == [] then []
    else
      var p := ps[|ps| - 1];
      var acc := GroupLines(doc, ps[..|ps| - 1]);
      GroupStep(doc, ps, acc);
      match p.lineNo
      case None => acc
      case Some(ln) => ExtendLine(acc, LineMatch(ln, doc.lines[ln - 1], [SpanOf(p)]))
  }

  lemma GroupStep(doc: Sonnet, ps: seq<Posting>, acc: seq<LineMatch>)
    requires |ps| > 0 && AllLineOk(doc, ps)
    requires LinesIncreasing(acc)
    requires forall L :: Find(acc, L) == LineFor(doc, ps[..|ps| - 1], L)
    requires SpanTotal(acc) + |TitleSpans(ps[..|ps| - 1])| == |ps| - 1
    ensures var p := ps[|ps| - 1];
            var r := match p.lineNo
                     case None => acc
                     case Some(ln) => ExtendLine(acc, LineMatch(ln, doc.lines[ln - 1], [SpanOf(p)]));
            && (forall L :: Find(r, L) == LineFor(doc, ps, L))
            && SpanTotal(r) + |TitleSpans(ps)| == |ps|
  {
    var p := ps[|ps| - 1];
    SingleShape(doc, p);
    forall L ensures LineFor(doc, ps, L) == Join(LineFor(doc, ps[..|ps| - 1], L), LineFor(doc, [p], L)) {
      LineForStep(doc, ps, L);
    }
  }

  /** `sonnet.search_for(query, index)`: the result for one document, built
      directly from its postings for the stemmed query; no result (count 0)
      when the stem is not indexed. Title spans stay in posting order. */
  function SonnetSearchFor(doc: Sonnet, idx: Index, stem: string -> string, query: string)
    : (r: SearchResult)
    requires forall p :: p in PostingsOf(idx.dictionary, stem(query), doc.id) ==> LineOk(doc, p)
    ensures r.title == doc.title
    ensures Consistent(r)
    ensures r.matches == |PostingsOf(idx.dictionary, stem(query), doc.id)|
    ensures r.titleSpans == TitleSpans(PostingsOf(idx.dictionary, stem(query), doc.id))
    ensures forall L :: Find(r.lineMatches, L) == LineFor(doc, PostingsOf(idx.dictionary, stem(query), doc.id), L)
  {
    var key := stem(query);
    if key !in idx.dictionary then SearchResult(doc.title, [], [], 0)
    else
      var postings := idx.dictionary[key];
      var ps := if doc.id in postings then postings[doc.id] else [];
      assert AllLineOk(doc, ps) by {
        forall i | 0 <= i < |ps| ensures LineOk(doc, ps[i]) {
          assert ps[i] in PostingsOf(idx.dictionary, key, doc.id);
        }
      }
      var titleSpans := TitleSpans(ps);
      var lines := GroupLines(doc, ps);
      SearchResult(doc.title, titleSpans, lines, |titleSpans| + SpanTotal(lines))
  }

  // ---------------------------------------------------------------------------
  // The two lookups agree

  /** Both lookups find the same document for a stem with the same result:
      `Index.search_for` sorts the title spans through `combine_with`, while
      `Sonnet.search_for` keeps posting order, which on a well-formed index
      is already sorted. */
  lemma SearchForAgree(idx: Index, stem: string -> string, token: string, d: int)
    requires WellFormed(idx) && d in idx.sonnets
    ensures var a := IndexSearchFor(idx, stem, token);
            var b := SonnetSearchFor(idx.sonnets[d], idx, stem, token);
            && (d in a <==> b.matches > 0)
            && (d in a ==> a[d] == b)
  {
    var a := IndexSearchFor(idx, stem, token);
    var doc := idx.sonnets[d];
    assert doc.id == d;
    var b := SonnetSearchFor(doc, idx, stem, token);
    var ps := PostingsOf(idx.dictionary, stem(token), d);
    if d in a {
      FindExt(a[d].lineMatches, b.lineMatches);
      TitleSpansSorted(ps);
      SortedUnique(a[d].titleSpans, b.titleSpans);
    }
  }

  lemma {:induction false} TitleSpansBelow(ps: seq<Posting>, q: Posting)
    requires forall i :: 0 <= i < |ps| && ps[i].lineNo.None? ==> ps[i].position < q.position
    ensures forall k :: 0 <= k < |TitleSpans(ps)| ==> TitleSpans(ps)[k].start < q.position
    decreases |ps|
  {
    if ps != [] {
      var init := ps[..|ps| - 1];
      TitleSpansBelow(init, q);
    }
  }

  /** Postings in scan order give title spans in increasing order. */
  lemma {:induction false} TitleSpansSorted(ps: seq<Posting>)
    requires ScanOrdered(ps)
    ensures Sorted(TitleSpans(ps))
    decreases |ps|
  {
    if ps != [] {
      var init, p := ps[..|ps| - 1], ps[|ps| - 1];
      assert ScanOrdered(init);
      TitleSpansSorted(init);
      if p.lineNo.None? {
        assert forall i :: 0 <= i < |init| ==> Before(init[i], p);
        TitleSpansBelow(init, p);
      }
    }
  }

  /** On an index built from documents with distinct ids, the two lookups
      give the same result for every document `Index.search_for` finds. */
  lemma BuiltSearchForAgree(sonnets: seq<Sonnet>, stem: string -> string, token: string, d: int)
    requires DistinctIds(sonnets)
    ensures WellFormed(Build(sonnets, stem))
    ensures var idx := Build(sonnets, stem);
            var a := IndexSearchFor(idx, stem, token);
            d in a ==> d in idx.sonnets && a[d] == SonnetSearchFor(idx.sonnets[d], idx, stem, token)
  {
    var idx := Build(sonnets, stem);
    BuildWellFormed(sonnets, stem);
    if d in IndexSearchFor(idx, stem, token) {
      SearchForAgree(idx, stem, token, d);
    }
  }
}

=== FILE: optional.dfy ===
/** Python's `None`-or-value, used for a posting's line number and for lookups. */
module Optional {

  datatype Option<+T> = None | Some(value: T)

}

=== FILE: query.dfy ===
/** `Searcher.search`: one lookup per query word, folded into one map of
    results per document under "OR" or "AND", then listed by title. */
module Query {
  import opened Optional
  import opened Indexing
  import opened Results
  import opened Lookup
  import opened Tokens

  /** Results per document id, as `Index.search_for` returns them. */
  type Hits = map<int, SearchResult>

  /** The matches a map holds for document d, 0 when it has none. */
  function MatchesIn(h: Hits, d: int): int
  {
    if d in h then h[d].matches else 0
  }

  // ---------------------------------------------------------------------------
  // Lookups per word

  /** The lookups of the word loop. Each word goes through
      `normalized_stem_token` before `Index.search_for`, which applies it
      again: the index is asked for `stem(stem(word))`. */
  function PerWord(idx: Index, stem: string -> string, words: seq<string>): (rs: seq<Hits>)
    requires Searchable(idx)
    ensures |rs| == |words|
    ensures forall k :: 0 <= k < |words| ==> rs[k].Keys <= idx.sonnets.Keys
    decreases |words|
  {
    if words == [] then []
    else
      var init := PerWord(idx, stem, words[..|words| - 1]);
      var h := IndexSearchFor(idx, stem, stem(words[|words| - 1]));
      LookupTitled(idx, stem, stem(words[|words| - 1]));
      assert forall k :: 0 <= k < |init| ==> (init + [h])[k] == init[k];
      assert (init + [h])[|init|] == h;
      assert h.Keys <= idx.sonnets.Keys by {
        forall d | d in h ensures d in idx.sonnets {
          assert Titled(h, idx);
        }
      }
      init + [h]
  }

  lemma {:induction false} PerWordIsLookup(idx: Index, stem: string -> string, words: seq<string>, k: int)
    requires Searchable(idx) && 0 <= k < |words|
    ensures PerWord(idx, stem, words)[k] == IndexSearchFor(idx, stem, stem(words[k]))
    decreases |words|
  {
    if k < |words| - 1 {
      PerWordIsLookup(idx, stem, words[..|words| - 1], k);
    }
  }

  // ---------------------------------------------------------------------------
  // One pass of the word loop

  /** The "OR" branch: every document of either map; a document in both gets
      the running result combined with the new one. */
  function Union(acc: Hits, res: Hits): (r: Hits)
    ensures r.Keys == acc.Keys + res.Keys
    ensures forall d :: d in r ==> r[d].matches == MatchesIn(acc, d) + MatchesIn(res, d)
    ensures forall d :: d in r ==> r[d].title == (if d in acc then acc[d] else res[d]).title
    ensures forall d :: d in r ==> (Consistent(r[d]) <== (d in acc ==> Consistent(acc[d])) && (d in res ==> Consistent(res[d])))
    ensures forall d :: d in acc && d in res ==> r[d] == Combine(acc[d], res[d])
    ensures forall d :: d in acc && d !in res ==> r[d] == acc[d]
    ensures forall d :: d !in acc && d in res ==> r[d] == res[d]
  {
    map d | d in acc.Keys + res.Keys ::
      if d in acc && d in res then Combine(acc[d], res[d])
      else if d in acc then acc[d]
      else res[d]
  }

  /** The "AND" branch: documents in both maps, each combined; the others are
      deleted from the running map. */
  function Intersect(acc: Hits, res: Hits): (r: Hits)
    ensures r.Keys == acc.Keys * res.Keys
    ensures forall d :: d in r ==> r[d].matches == acc[d].matches + res[d].matches
    ensures forall d :: d in r ==> r[d].title == acc[d].title
    ensures forall d :: d in r ==> (Consistent(r[d]) <== Consistent(acc[d]) && Consistent(res[d]))
    ensures forall d :: d in r ==> r[d] == Combine(acc[d], res[d])
  {
    map d | d in acc.Keys * res.Keys :: Combine(acc[d], res[d])
  }

  /** One word's merge step in the loop's chosen mode: any mode other than
      "OR" behaves as "AND". */
  function MergeStep(acc: Hits, res: Hits, mode: string): Hits
  {
    if mode == "OR" then Union(acc, res) else Intersect(acc, res)
  }

  /** One iteration of the word loop as written: an empty running map is
      replaced by the word's results, whatever the mode. */
  function Step(acc: Hits, res: Hits, mode: string): (r: Hits)
    ensures |acc| == 0 ==> r == res
    ensures |acc| > 0 ==> r.Keys == if mode == "OR" then acc.Keys + res.Keys else acc.Keys * res.Keys
  {
    if |acc| == 0 then res else MergeStep(acc, res, mode)
  }

  /** The word loop as written, over the per-word results in query order. */
  function Fold(rs: seq<Hits>, mode: string): Hits
    decreases |rs|
  {
    if rs == [] then map[]
    else Step(Fold(rs[..|rs| - 1], mode), rs[|rs| - 1], mode)
  }

  /** The word loop seeded only by the first word. */
  function FoldFixed(rs: seq<Hits>, mode: string): Hits
    decreases |rs|
  {
    if rs == [] then map[]
    else if |rs| == 1 then rs[0]
    else MergeStep(FoldFixed(rs[..|rs| - 1], mode), rs[|rs| - 1], mode)
  }

  // ---------------------------------------------------------------------------
  // What the loop computes

  /** The matches of document d summed over all words. */
  function MatchSum(rs: seq<Hits>, d: int): int
    decreases |rs|
  {
    if rs == [] then 0 else MatchSum(rs[..|rs| - 1], d) + MatchesIn(rs[|rs| - 1], d)
  }

  /** One "OR" pass, re-seeding included: a document is kept when either
      side has it, with both sides' matches. */
  lemma OrStep(acc: Hits, res: Hits, d: int)
    ensures d in Step(acc, res, "OR") <==> d in acc || d in res
    ensures MatchesIn(Step(acc, res, "OR"), d) == MatchesIn(acc, d) + MatchesIn(res, d)
  {
    if |acc| == 0 {
      assert d !in acc;
    }
  }

  /** Some word found document d. */
  ghost predicate SomeFound(rs: seq<Hits>, d: int)
  {
    exists k :: 0 <= k < |rs| && d in rs[k]
  }

  lemma SomeFoundSnoc(rs: seq<Hits>, d: int)
    requires |rs| > 0
    ensures SomeFound(rs, d) <==> SomeFound(rs[..|rs| - 1], d) || d in rs[|rs| - 1]
  {
    var init := rs[..|rs| - 1];
    if SomeFound(rs, d) && d !in rs[|rs| - 1] {
      var k :| 0 <= k < |rs| && d in rs[k];
      assert init[k] == rs[k];
    }
    if SomeFound(init, d) {
      var k :| 0 <= k < |init| && d in init[k];
      assert init[k] == rs[k];
    }
  }

  /** Under "OR" the result holds exactly the documents some word found, each
      with the matches of all words added up. */
  lemma {:induction false} OrFold(rs: seq<Hits>, d: int)
    ensures d in Fold(rs, "OR") <==> SomeFound(rs, d)
    ensures MatchesIn(Fold(rs, "OR"), d) == MatchSum(rs, d)
    decreases |rs|
  {
    if rs != [] {
      var init := rs[..|rs| - 1];
      OrFold(init, d);
      OrStep(Fold(init, "OR"), rs[|rs| - 1], d);
      SomeFoundSnoc(rs, d);
    }
  }

  /** The loop as written and the first-word-seeded loop agree under "OR". */
  lemma {:induction false} OrFoldFixed(rs: seq<Hits>)
    ensures Fold(rs, "OR") == FoldFixed(rs, "OR")
    decreases |rs|
  {
    if |rs| > 1 {
      var init := rs[..|rs| - 1];
      OrFoldFixed(init);
      var acc, res := Fold(init, "OR"), rs[|rs| - 1];
      if |acc| == 0 {
        assert acc == map[];
        assert Union(acc, res) == res;
      }
    } else if |rs| == 1 {
      assert rs[..0] == [];
    }
  }

  /** Under the first-word-seeded loop in "AND" mode, the result holds exactly
      the documents every word found, each with all words' matches added up. */
  lemma {:induction false} AndFoldFixed(rs: seq<Hits>, mode: string, d: int)
    requires mode != "OR" && |rs| > 0
    ensures d in FoldFixed(rs, mode) <==> AllFound(rs, d)
    ensures MatchesIn(FoldFixed(rs, mode), d) == if d in FoldFixed(rs, mode) then MatchSum(rs, d) else 0
    decreases |rs|
  {
    if |rs| == 1 {
      assert rs[..0] == [];
    } else {
      var init, last := rs[..|rs| - 1], rs[|rs| - 1];
      AndFoldFixed(init, mode, d);
      AllFoundSnoc(rs, d);
      var acc := FoldFixed(init, mode);
      assert FoldFixed(rs, mode) == Intersect(acc, last);
    }
  }

  /** Every word found document d. */
  ghost predicate AllFound(rs: seq<Hits>, d: int)
  {
    forall k :: 0 <= k < |rs| ==> d in rs[k]
  }

  lemma AllFoundSnoc(rs: seq<Hits>, d: int)
    requires |rs| > 0
    ensures AllFound(rs, d) <==> AllFound(rs[..|rs| - 1], d) && d in rs[|rs| - 1]
  {
    var init := rs[..|rs| - 1];
    assert forall k :: 0 <= k < |init| ==> init[k] == rs[k];
  }

  /** The loop as written keeps, in "AND" mode, only documents the last word
      found, and only documents some word found. */
  lemma {:induction false} AndFoldKeys(rs: seq<Hits>, mode: string)
    requires mode != "OR"
    ensures |rs| > 0 ==> Fold(rs, mode).Keys <= rs[|rs| - 1].Keys
    ensures Fold(rs, mode).Keys <= Fold(rs, "OR").Keys
    decreases |rs|
  {
    if rs != [] {
      var init := rs[..|rs| - 1];
      AndFoldKeys(init, mode);
      forall d | d in Fold(rs, mode) ensures d in Fold(rs, "OR") {
        OrFold(rs, d);
        assert d in rs[|rs| - 1];
      }
    }
  }

  /** Every result in h counts a non-negative number of matches. */
  ghost predicate NonNegative(h: Hits)
  {
    forall d :: d in h ==> h[d].matches >= 0
  }

  lemma {:induction false} MatchSumNonNegative(rs: seq<Hits>, d: int)
    requires forall k :: 0 <= k < |rs| ==> NonNegative(rs[k])
    ensures MatchSum(rs, d) >= 0
    decreases |rs|
  {
    if rs != [] {
      MatchSumNonNegative(rs[..|rs| - 1], d);
      assert NonNegative(rs[|rs| - 1]);
    }
  }

  /** The loop as written, in "AND" mode, never counts more matches for a
      document than all words together: at most the matches "OR" counts. */
  lemma {:induction false} AndAtMostSum(rs: seq<Hits>, mode: string, d: int)
    requires mode != "OR"
    requires forall k :: 0 <= k < |rs| ==> NonNegative(rs[k])
    ensures d in Fold(rs, mode) ==> Fold(rs, mode)[d].matches <= MatchSum(rs, d)
    decreases |rs|
  {
    if rs != [] {
      var init, last := rs[..|rs| - 1], rs[|rs| - 1];
      AndAtMostSum(init, mode, d);
      MatchSumNonNegative(init, d);
      var acc := Fold(init, mode);
      if |acc| > 0 && d in acc && d in last {
        assert Fold(rs, mode)[d] == Intersect(acc, last)[d];
      }
    }
  }

  /** "AND" is contained in "OR": every document the loop as written keeps in
      "AND" mode is kept in "OR" mode too, with at least as many matches. */
  lemma AndWithinOr(rs: seq<Hits>, mode: string, d: int)
    requires mode != "OR"
    requires forall k :: 0 <= k < |rs| ==> NonNegative(rs[k])
    ensures d in Fold(rs, mode) ==> d in Fold(rs, "OR")
    ensures d in Fold(rs, mode) ==> Fold(rs, mode)[d].matches <= Fold(rs, "OR")[d].matches
  {
    AndFoldKeys(rs, mode);
    AndAtMostSum(rs, mode, d);
    OrFold(rs, d);
  }

  /** For a query, "AND" (as written) keeps only documents "OR" keeps, each
      with at most the matches "OR" counts. */
  lemma SearchAndWithinOr(idx: Index, stem: string -> string, query: string, mode: string, d: int)
    requires Searchable(idx) && mode != "OR"
    ensures var rs := PerWord(idx, stem, Words(query));
            d in Fold(rs, mode) ==>
              d in Fold(rs, "OR") && Fold(rs, mode)[d].matches <= Fold(rs, "OR")[d].matches
  {
    var rs := PerWord(idx, stem, Words(query));
    PerWordTitled(idx, stem, Words(query));
    forall k | 0 <= k < |rs| ensures NonNegative(rs[k]) {
      assert Titled(rs[k], idx);
    }
    AndWithinOr(rs, mode, d);
  }

  /** The titles of the indexed documents. */
  ghost function Titles(idx: Index): set<string>
  {
    set d | d in idx.sonnets :: idx.sonnets[d].title
  }

  /** Every document of the loop's result (as written, either mode) carries
      its own title and a consistent result, when every word's lookup does. */
  ghost predicate Titled(h: Hits, idx: Index)
  {
    forall d :: d in h ==> d in idx.sonnets && h[d].title == idx.sonnets[d].title && Consistent(h[d])
  }

  lemma {:induction false} FoldTitled(rs: seq<Hits>, mode: string, idx: Index)
    requires forall k :: 0 <= k < |rs| ==> Titled(rs[k], idx)
    ensures Titled(Fold(rs, mode), idx)
    decreases |rs|
  {
    if rs != [] {
      FoldTitled(rs[..|rs| - 1], mode, idx);
    }
  }

  lemma {:induction false} FoldFixedTitled(rs: seq<Hits>, mode: string, idx: Index)
    requires forall k :: 0 <= k < |rs| ==> Titled(rs[k], idx)
    ensures Titled(FoldFixed(rs, mode), idx)
    decreases |rs|
  {
    if |rs| > 1 {
      FoldFixedTitled(rs[..|rs| - 1], mode, idx);
    }
  }

  /** Every lookup result is titled after its document. */
  lemma LookupTitled(idx: Index, stem: string -> string, token: string)
    requires Searchable(idx)
    ensures Titled(IndexSearchFor(idx, stem, token), idx)
  {
  }

  // ---------------------------------------------------------------------------
  // Listing the results

  /** Python's `<=` on strings: lexicographic by code point. */
  predicate StrLe(a: string, b: string)
    decreases |a|
  {
    a == [] || (b != [] && (a[0] < b[0] || (a[0] == b[0] && StrLe(a[1..], b[1..]))))
  }

  lemma {:induction false} StrLeTotal(a: string, b: string)
    ensures StrLe(a, b) || StrLe(b, a)
    decreases |a|
  {
    if a != [] && b != [] && a[0] == b[0] {
      StrLeTotal(a[1..], b[1..]);
    }
  }

  lemma {:induction false} StrLeTrans(a: string, b: string, c: string)
    requires StrLe(a, b) && StrLe(b, c)
    ensures StrLe(a, c)
    decreases |a|
  {
    if a != [] && b != [] && c != [] && a[0] == b[0] && b[0] == c[0] {
      StrLeTrans(a[1..], b[1..], c[1..]);
    }
  }

  ghost predicate ByTitle(s: seq<SearchResult>)
  {
    forall i, j :: 0 <= i < j < |s| ==> StrLe(s[i].title, s[j].title)
  }

  /** No title in s is greater than t. */
  ghost predicate TitlesUpTo(s: seq<SearchResult>, t: string)
  {
    forall k :: 0 <= k < |s| ==> StrLe(s[k].title, t)
  }

  /** Inserts x after every element whose title is not greater than its own,
      which keeps equal titles in input order. */
  function InsertByTitle(x: SearchResult, s: seq<SearchResult>): (r: seq<SearchResult>)
    requires ByTitle(s)
    ensures ByTitle(r)
    ensures multiset(r) == multiset(s) + multiset{x}
    ensures TitlesUpTo(s, x.title) ==> r == s + [x]
    decreases |s|
  {
    if s == [] then [x]
    else if !StrLe(s[0].title, x.title) then
      InsertFront(x, s);
      [x] + s
    else
      var t := InsertByTitle(x, s[1..]);
      InsertCons(x, s, t);
      [s[0]] + t
  }

  lemma InsertFront(x: SearchResult, s: seq<SearchResult>)
    requires ByTitle(s) && s != [] && !StrLe(s[0].title, x.title)
    ensures ByTitle([x] + s)
  {
    StrLeTotal(s[0].title, x.title);
    forall k | 0 <= k < |s| ensures StrLe(x.title, s[k].title) {
      if k > 0 { StrLeTrans(x.title, s[0].title, s[k].title); }
    }
  }

  /** The step of InsertByTitle that keeps the head of s in front. */
  lemma InsertCons(x: SearchResult, s: seq<SearchResult>, t: seq<SearchResult>)
    requires ByTitle(s) && s != [] && StrLe(s[0].title, x.title)
    requires ByTitle(t) && multiset(t) == multiset(s[1..]) + multiset{x}
    requires TitlesUpTo(s[1..], x.title) ==> t == s[1..] + [x]
    ensures ByTitle([s[0]] + t)
    ensures multiset([s[0]] + t) == multiset(s) + multiset{x}
    ensures TitlesUpTo(s, x.title) ==> [s[0]] + t == s + [x]
  {
    InsertBehind(x, s, t);
    assert s == [s[0]] + s[1..];
    TitlesUpToTail(s, x.title);
  }

  lemma InsertBehind(x: SearchResult, s: seq<SearchResult>, t: seq<SearchResult>)
    requires ByTitle(s) && s != [] && StrLe(s[0].title, x.title)
    requires multiset(t) == multiset(s[1..]) + multiset{x}
    ensures forall k :: 0 <= k < |t| ==> StrLe(s[0].title, t[k].title)
  {
    forall k | 0 <= k < |t| ensures StrLe(s[0].title, t[k].title) {
      assert t[k] in multiset(s[1..]) + multiset{x};
      if t[k] in multiset(s[1..]) {
        var j :| 0 <= j < |s[1..]| && s[1..][j] == t[k];
        assert s[j + 1] == t[k];
      }
    }
  }

  lemma TitlesUpToTail(s: seq<SearchResult>, t: string)
    requires s != []
    ensures TitlesUpTo(s, t) ==> TitlesUpTo(s[1..], t)
  {
    if TitlesUpTo(s, t) {
      forall k | 0 <= k < |s[1..]| ensures StrLe(s[1..][k].title, t) {
        assert s[1..][k] == s[k + 1];
      }
    }
  }

  /** `sorted(results, key=lambda sr: sr.title)`: a stable insertion sort. */
  function SortByTitle(s: seq<SearchResult>): (r: seq<SearchResult>)
    ensures ByTitle(r)
    ensures multiset(r) == multiset(s)
    ensures |r| == |s|
    decreases |s|
  {
    if s == [] then []
    else
      var init := s[..|s| - 1];
      assert s == init + [s[|s| - 1]];
      var r := InsertByTitle(s[|s| - 1], SortByTitle(init));
      assert |r| == |multiset(r)|;
      r
  }

  /** The results of s whose title is t, in the order of s. */
  function WithTitle(s: seq<SearchResult>, t: string): seq<SearchResult>
  {
    if s == [] then []
    else (if s[0].title == t then [s[0]] else []) + WithTitle(s[1..], t)
  }

  lemma WithTitleCons(a: SearchResult, s: seq<SearchResult>, t: string)
    ensures WithTitle([a] + s, t) == (if a.title == t then [a] else []) + WithTitle(s, t)
  {
    assert ([a] + s)[0] == a;
    assert ([a] + s)[1..] == s;
  }

  lemma {:induction false} WithTitleAppend(a: seq<SearchResult>, b: seq<SearchResult>, t: string)
    ensures WithTitle(a + b, t) == WithTitle(a, t) + WithTitle(b, t)
    decreases |a|
  {
    if a != [] {
      WithTitleAppend(a[1..], b, t);
      assert a + b == [a[0]] + (a[1..] + b);
      assert a == [a[0]] + a[1..];
      WithTitleCons(a[0], a[1..] + b, t);
      WithTitleCons(a[0], a[1..], t);
    } else {
      assert a + b == b;
    }
  }

  lemma {:induction false} WithTitleNone(s: seq<SearchResult>, t: string)
    requires forall k :: 0 <= k < |s| ==> s[k].title != t
    ensures WithTitle(s, t) == []
    decreases |s|
  {
    if s != [] {
      assert forall k :: 0 <= k < |s[1..]| ==> s[1..][k] == s[k + 1];
      WithTitleNone(s[1..], t);
    }
  }

  /** Inserting x keeps the results of every title in their order, and puts x
      after those with its own title. */
  lemma {:induction false} InsertByTitleStable(x: SearchResult, s: seq<SearchResult>, t: string)
    requires ByTitle(s)
    ensures WithTitle(InsertByTitle(x, s), t) == WithTitle(s, t) + (if x.title == t then [x] else [])
    decreases |s|
  {
    if s == [] {
      WithTitleCons(x, [], t);
      assert [x] + [] == [x];
    } else if !StrLe(s[0].title, x.title) {
      InsertFrontStable(x, s, t);
    } else {
      assert ByTitle(s[1..]);
      InsertByTitleStable(x, s[1..], t);
      InsertBehindStable(x, s, InsertByTitle(x, s[1..]), t);
    }
  }

  /** x goes behind the first result: that result stays first among those
      with its title. */
  lemma InsertBehindStable(x: SearchResult, s: seq<SearchResult>, u: seq<SearchResult>, t: string)
    requires s != []
    requires WithTitle(u, t) == WithTitle(s[1..], t) + (if x.title == t then [x] else [])
    ensures WithTitle([s[0]] + u, t) == WithTitle(s, t) + (if x.title == t then [x] else [])
  {
    WithTitleCons(s[0], u, t);
    WithTitleCons(s[0], s[1..], t);
    assert s == [s[0]] + s[1..];
  }

  /** x goes in front when the first title is greater: no result of s has
      x's title. */
  lemma InsertFrontStable(x: SearchResult, s: seq<SearchResult>, t: string)
    requires ByTitle(s) && s != [] && !StrLe(s[0].title, x.title)
    ensures WithTitle([x] + s, t) == WithTitle(s, t) + (if x.title == t then [x] else [])
  {
    WithTitleCons(x, s, t);
    if x.title == t {
      forall k | 0 <= k < |s| ensures s[k].title != t {
        StrLeTotal(x.title, x.title);
        if k > 0 {
          assert StrLe(s[0].title, s[k].title);
        }
      }
      WithTitleNone(s, t);
    }
  }

  /** `sorted` is stable: the results with any one title come out in the
      order they went in. */
  lemma {:induction false} SortByTitleStable(s: seq<SearchResult>, t: string)
    ensures WithTitle(SortByTitle(s), t) == WithTitle(s, t)
    decreases |s|
  {
    if s != [] {
      var init, last := s[..|s| - 1], s[|s| - 1];
      SortByTitleStable(init, t);
      InsertByTitleStable(last, SortByTitle(init), t);
      assert SortByTitle(s) == InsertByTitle(last, SortByTitle(init));
      Snoc(s);
      WithTitleAppend(init, [last], t);
      assert WithTitle([last], t) == (if last.title == t then [last] else []) + WithTitle([], t);
    }
  }

  lemma Snoc<T>(s: seq<T>)
    requires s != []
    ensures s == s[..|s| - 1] + [s[|s| - 1]]
  {
  }

  /** A list already in title order is left as it is. */
  lemma {:induction false} SortByTitleSorted(s: seq<SearchResult>)
    requires ByTitle(s)
    ensures SortByTitle(s) == s
    decreases |s|
  {
    if s != [] {
      var init, last := s[..|s| - 1], s[|s| - 1];
      ByTitleInit(s);
      SortByTitleSorted(init);
      assert SortByTitle(s) == InsertByTitle(last, init);
      Snoc(s);
    }
  }

  lemma ByTitleInit(s: seq<SearchResult>)
    requires ByTitle(s) && s != []
    ensures ByTitle(s[..|s| - 1])
    ensures TitlesUpTo(s[..|s| - 1], s[|s| - 1].title)
  {
    var init := s[..|s| - 1];
    assert forall k :: 0 <= k < |init| ==> init[k] == s[k];
  }

  predicate IsMin(m: int, ids: set<int>)
  {
    m in ids && forall x :: x in ids ==> m <= x
  }

  /** Every non-empty set of ids has a smallest element. */
  lemma {:induction false} HasMin(ids: set<int>)
    requires ids != {}
    ensures exists m :: IsMin(m, ids)
    decreases |ids|
  {
    if forall y :: y !in ids {
      assert false;
    }
    var y :| y in ids;
    if ids == {y} {
      assert IsMin(y, ids);
    } else {
      var rest := ids - {y};
      HasMin(rest);
      var m :| IsMin(m, rest);
      MinOfTwo(y, m, rest);
      assert ids == rest + {y};
      assert IsMin(if y < m then y else m, ids);
    }
  }

  lemma MinOfTwo(y: int, m: int, rest: set<int>)
    requires IsMin(m, rest)
    ensures IsMin(if y < m then y else m, rest + {y})
  {
  }

  function MinOf(ids: set<int>): (m: int)
    requires ids != {}
    ensures m in ids && forall x :: x in ids ==> m <= x
  {
    HasMin(ids);
    var m :| IsMin(m, ids);
    m
  }

  /** The ids of a result map in increasing order. */
  function SortedIds(ids: set<int>): (r: seq<int>)
    ensures forall i, j :: 0 <= i < j < |r| ==> r[i] < r[j]
    ensures forall d :: d in r <==> d in ids
    ensures |r| == |ids|
    decreases |ids|
  {
    if ids == {} then []
    else
      var m := MinOf(ids);
      var rest := SortedIds(ids - {m});
      assert forall i :: 0 <= i < |rest| ==> rest[i] in ids - {m};
      [m] + rest
  }

  /** The values of h at the given ids, in that order. */
  function ValuesAt(h: Hits, ids: seq<int>): (r: seq<SearchResult>)
    requires forall k :: 0 <= k < |ids| ==> ids[k] in h
    ensures |r| == |ids|
    ensures forall k :: 0 <= k < |ids| ==> r[k] == h[ids[k]]
  {
    seq(|ids|, k requires 0 <= k < |ids| => h[ids[k]])
  }

  /** `list(combined_results.values())`, taken in increasing id order. */
  function ValuesById(h: Hits): (r: seq<SearchResult>)
    ensures |r| == |h|
    ensures forall k :: 0 <= k < |r| ==> SortedIds(h.Keys)[k] in h && r[k] == h[SortedIds(h.Keys)[k]]
    ensures forall k :: 0 <= k < |r| ==> r[k] in h.Values
    ensures forall d :: d in h ==> h[d] in r
  {
    var ids := SortedIds(h.Keys);
    var r := ValuesAt(h, ids);
    ValuesListed(h, ids, r);
    r
  }

  lemma ValuesListed(h: Hits, ids: seq<int>, r: seq<SearchResult>)
    requires forall d :: d in ids <==> d in h.Keys
    requires |ids| == |h.Keys| && |r| == |ids|
    requires forall k :: 0 <= k < |ids| ==> ids[k] in h && r[k] == h[ids[k]]
    ensures |r| == |h|
    ensures forall k :: 0 <= k < |r| ==> r[k] in h.Values
    ensures forall d :: d in h ==> h[d] in r
  {
    assert |h| == |h.Keys|;
    forall d | d in h ensures h[d] in r {
      var k :| 0 <= k < |ids| && ids[k] == d;
      assert r[k] == h[d];
    }
  }

  /** `sorted(list(combined_results.values()), key=lambda sr: sr.title)` for a titled map. */
  function Listing(h: Hits, idx: Index): (r: seq<SearchResult>)
    requires Titled(h, idx)
    ensures ByTitle(r)
    ensures multiset(r) == multiset(ValuesById(h))
    ensures forall k :: 0 <= k < |r| ==> r[k].title in Titles(idx)
  {
    var vs := ValuesById(h);
    var r := SortByTitle(vs);
    ListedTitled(h, idx, vs, r);
    r
  }

  /** `Searcher.search(query, search_mode)`: split the query on whitespace,
      look every word up, fold the results as written, list them by title. */
  function Search(idx: Index, stem: string -> string, query: string, mode: string): (r: seq<SearchResult>)
    requires Searchable(idx)
    ensures ByTitle(r)
    ensures multiset(r) == multiset(ValuesById(Fold(PerWord(idx, stem, Words(query)), mode)))
    ensures forall k :: 0 <= k < |r| ==> r[k].title in Titles(idx)
  {
    SearchTitled(idx, stem, Words(query), mode);
    Listing(Fold(PerWord(idx, stem, Words(query)), mode), idx)
  }

  /** The search with the loop seeded only by the first word, so that in
      "AND" mode a word without hits empties the result for good. */
  function SearchFixed(idx: Index, stem: string -> string, query: string, mode: string): (r: seq<SearchResult>)
    requires Searchable(idx)
    ensures ByTitle(r)
    ensures multiset(r) == multiset(ValuesById(FoldFixed(PerWord(idx, stem, Words(query)), mode)))
    ensures forall k :: 0 <= k < |r| ==> r[k].title in Titles(idx)
  {
    SearchFixedTitled(idx, stem, Words(query), mode);
    Listing(FoldFixed(PerWord(idx, stem, Words(query)), mode), idx)
  }

  lemma ListedTitled(h: Hits, idx: Index, vs: seq<SearchResult>, r: seq<SearchResult>)
    requires Titled(h, idx)
    requires forall k :: 0 <= k < |vs| ==> vs[k] in h.Values
    requires multiset(r) == multiset(vs)
    ensures forall k :: 0 <= k < |r| ==> r[k].title in Titles(idx)
  {
    forall k | 0 <= k < |r| ensures r[k].title in Titles(idx) {
      assert r[k] in multiset(vs);
      var j :| 0 <= j < |vs| && vs[j] == r[k];
      assert vs[j] in h.Values;
      if forall d :: d in h ==> h[d] != vs[j] {
        assert false;
      }
      var d :| d in h && h[d] == vs[j];
      assert d in idx.sonnets && r[k].title == idx.sonnets[d].title;
      assert idx.sonnets[d].title in Titles(idx);
    }
  }

  lemma PerWordTitled(idx: Index, stem: string -> string, words: seq<string>)
    requires Searchable(idx)
    ensures forall k :: 0 <= k < |words| ==> Titled(PerWord(idx, stem, words)[k], idx)
  {
    forall k | 0 <= k < |words| ensures Titled(PerWord(idx, stem, words)[k], idx) {
      PerWordIsLookup(idx, stem, words, k);
      LookupTitled(idx, stem, stem(words[k]));
    }
  }

  lemma SearchTitled(idx: Index, stem: string -> string, words: seq<string>, mode: string)
    requires Searchable(idx)
    ensures Titled(Fold(PerWord(idx, stem, words), mode), idx)
  {
    PerWordTitled(idx, stem, words);
    FoldTitled(PerWord(idx, stem, words), mode, idx);
  }

  lemma SearchFixedTitled(idx: Index, stem: string -> string, words: seq<string>, mode: string)
    requires Searchable(idx)
    ensures Titled(FoldFixed(PerWord(idx, stem, words), mode), idx)
  {
    PerWordTitled(idx, stem, words);
    FoldFixedTitled(PerWord(idx, stem, words), mode, idx);
  }

  /** Under "OR" a document is in the search's running map exactly when the
      index returns it for some word of the query. */
  lemma SearchOr(idx: Index, stem: string -> string, query: string, d: int)
    requires Searchable(idx)
    ensures var words := Words(query);
            d in Fold(PerWord(idx, stem, words), "OR") <==>
            exists k :: 0 <= k < |words| && d in IndexSearchFor(idx, stem, stem(words[k]))
  {
    var words := Words(query);
    var rs := PerWord(idx, stem, words);
    OrFold(rs, d);
    forall k | 0 <= k < |words| ensures rs[k] == IndexSearchFor(idx, stem, stem(words[k])) {
      PerWordIsLookup(idx, stem, words, k);
    }
  }

  /** With the loop seeded by the first word only, "AND" keeps a document
      exactly when the index returns it for every word of the query. */
  lemma SearchFixedAnd(idx: Index, stem: string -> string, query: string, mode: string, d: int)
    requires Searchable(idx) && mode != "OR" && Words(query) != []
    ensures var words := Words(query);
            d in FoldFixed(PerWord(idx, stem, words), mode) <==>
            forall k :: 0 <= k < |words| ==> d in IndexSearchFor(idx, stem, stem(words[k]))
  {
    var words := Words(query);
    var rs := PerWord(idx, stem, words);
    AndFoldFixed(rs, mode, d);
    forall k | 0 <= k < |words| ensures rs[k] == IndexSearchFor(idx, stem, stem(words[k])) {
      PerWordIsLookup(idx, stem, words, k);
    }
    AllFoundLookups(idx, stem, words, rs, d);
  }

  lemma AllFoundLookups(idx: Index, stem: string -> string, words: seq<string>, rs: seq<Hits>, d: int)
    requires Searchable(idx) && |rs| == |words|
    requires forall k :: 0 <= k < |words| ==> rs[k] == IndexSearchFor(idx, stem, stem(words[k]))
    ensures AllFound(rs, d) <==> forall k :: 0 <= k < |words| ==> d in IndexSearchFor(idx, stem, stem(words[k]))
  {
  }

  // ---------------------------------------------------------------------------
  // The re-seeding of the running map

  /** In "AND" mode the loop as written restarts from the next word's results
      once the running map is empty: a first word with no hits is ignored. */
  lemma ReseedCounterexample(r: SearchResult)
    ensures var rs := [map[], map[1 := r]];
            && Fold(rs, "AND") == map[1 := r]
            && 1 !in rs[0]
            && FoldFixed(rs, "AND") == map[]
  {
    var rs: seq<Hits> := [map[], map[1 := r]];
    assert rs[..1] == [map[]];
    assert rs[..1][..0] == [];
  }
}

=== FILE: results.dfy ===
/** `LineMatch`, `SearchResult` and `SearchResult.combine_with`. */
module Results {
  import opened Optional
  import opened Spans

  /** The spans of matches on one line, with the line's text. */
  datatype LineMatch = LineMatch(lineNo: int, text: string, spans: seq<Span>)

  /** The matches of a query in one document: spans in the title, matching
      lines, and the number of occurrences that contributed. */
  datatype SearchResult = SearchResult(title: string, titleSpans: seq<Span>,
                                       lineMatches: seq<LineMatch>, matches: int)

  /** Line numbers strictly increase along the list, so each line appears
      once. */
  ghost predicate LinesIncreasing(lms: seq<LineMatch>)
  {
    forall i, j :: 0 <= i < j < |lms| ==> lms[i].lineNo < lms[j].lineNo
  }

  /** The first line match for line L. */
  function Find(lms: seq<LineMatch>, L: int): (r: Option<LineMatch>)
    ensures r.Some? ==> r.value.lineNo == L && r.value in lms
    ensures r.None? ==> forall i :: 0 <= i < |lms| ==> lms[i].lineNo != L
  {
    if lms == [] then None
    else if lms[0].lineNo == L then Some(lms[0])
    else Find(lms[1..], L)
  }

  /** The number of spans over all line matches. */
  function SpanTotal(lms: seq<LineMatch>): nat
  {
    if lms == [] then 0 else |lms[0].spans| + SpanTotal(lms[1..])
  }

  /** The number of spans a result holds. */
  function SpanCount(r: SearchResult): nat
  {
    |r.titleSpans| + SpanTotal(r.lineMatches)
  }

  /** The invariant every result of a lookup satisfies: one entry per line,
      and one span per counted match. */
  ghost predicate Consistent(r: SearchResult)
  {
    LinesIncreasing(r.lineMatches) && r.matches == SpanCount(r)
  }

  function SpansOf(o: Option<LineMatch>): seq<Span>
  {
    match o
    case None => []
    case Some(lm) => lm.spans
  }

  /** A line match whose spans are extended by those of lm, or lm itself when
      there was none. */
  function Extended(o: Option<LineMatch>, lm: LineMatch): LineMatch
  {
    match o
    case None => lm
    case Some(prev) => prev.(spans := prev.spans + lm.spans)
  }

  /** The line match for one line after combining two results: the first
      side's text, its spans followed by the second side's. */
  function Join(x: Option<LineMatch>, y: Option<LineMatch>): Option<LineMatch>
  {
    match y
    case None => x
    case Some(lm) => Some(Extended(x, lm))
  }

  lemma FindHead(lms: seq<LineMatch>, L: int)
    requires LinesIncreasing(lms) && lms != [] && L <= lms[0].lineNo
    ensures Find(lms, L) == if L == lms[0].lineNo then Some(lms[0]) else None
  {
  }

  lemma IncreasingTail(lms: seq<LineMatch>)
    requires LinesIncreasing(lms) && lms != []
    ensures LinesIncreasing(lms[1..])
    ensures forall x :: x in lms[1..] ==> lms[0].lineNo < x.lineNo
  {
    forall x | x in lms[1..] ensures lms[0].lineNo < x.lineNo {
      var i :| 0 <= i < |lms[1..]| && lms[1..][i] == x;
      assert lms[i + 1] == x;
    }
  }

  lemma IncreasingCons(x: LineMatch, lms: seq<LineMatch>)
    requires LinesIncreasing(lms)
    requires forall y :: y in lms ==> x.lineNo < y.lineNo
    ensures LinesIncreasing([x] + lms)
  {
    var r := [x] + lms;
    forall i, j | 0 <= i < j < |r| ensures r[i].lineNo < r[j].lineNo {
      assert r[j] == lms[j - 1];
      if i > 0 { assert r[i] == lms[i - 1]; } else { assert r[j] in lms; }
    }
  }

  /** `lines_by_no[lm.line_no] = lm` on the line-ordered view of the dict:
      the entry for lm's line becomes lm, every other line is unchanged. */
  function PutLine(lms: seq<LineMatch>, lm: LineMatch): (r: seq<LineMatch>)
    requires LinesIncreasing(lms)
    ensures LinesIncreasing(r)
    ensures forall x :: x in r ==> x == lm || x in lms
    ensures Find(r, lm.lineNo) == Some(lm)
    ensures forall L :: L != lm.lineNo ==> Find(r, L) == Find(lms, L)
    ensures SpanTotal(r) == SpanTotal(lms) - |SpansOf(Find(lms, lm.lineNo))| + |lm.spans|
  {
    if lms == [] then [lm]
    else
      IncreasingTail(lms);
      if lm.lineNo <= lms[0].lineNo then
        FindHead(lms, lm.lineNo);
        var r := [lm] + (if lm.lineNo == lms[0].lineNo then lms[1..] else lms);
        IncreasingCons(lm, if lm.lineNo == lms[0].lineNo then lms[1..] else lms);
        assert forall L :: L != lm.lineNo ==> Find(r, L) == Find(r[1..], L);
        r
      else
        var t := PutLine(lms[1..], lm);
        IncreasingCons(lms[0], t);
        [lms[0]] + t
  }

  /** `lines_by_no[ln].spans.extend(lm.spans)` when line ln is present,
      `lines_by_no[ln] = lm` otherwise. */
  function ExtendLine(lms: seq<LineMatch>, lm: LineMatch): (r: seq<LineMatch>)
    requires LinesIncreasing(lms)
    ensures LinesIncreasing(r)
    ensures forall x :: x in r ==> x.lineNo == lm.lineNo || x in lms
    ensures Find(r, lm.lineNo) == Some(Extended(Find(lms, lm.lineNo), lm))
    ensures forall L :: L != lm.lineNo ==> Find(r, L) == Find(lms, L)
    ensures SpanTotal(r) == SpanTotal(lms) + |lm.spans|
  {
    if lms == [] then [lm]
    else
      IncreasingTail(lms);
      if lm.lineNo < lms[0].lineNo then
        FindHead(lms, lm.lineNo);
        IncreasingCons(lm, lms);
        [lm] + lms
      else if lm.lineNo == lms[0].lineNo then
        var x := lms[0].(spans := lms[0].spans + lm.spans);
        IncreasingCons(x, lms[1..]);
        assert lms == [lms[0]] + lms[1..];
        [x] + lms[1..]
      else
        var t := ExtendLine(lms[1..], lm);
        IncreasingCons(lms[0], t);
        [lms[0]] + t
  }

  /** `{lm.line_no: lm for lm in line_matches}` in line order: a later match
      for the same line replaces an earlier one. */
  function LinesByNo(lms: seq<LineMatch>): (r: seq<LineMatch>)
    ensures LinesIncreasing(r)
  {
    if lms == [] then []
    else PutLine(LinesByNo(lms[..|lms| - 1]), lms[|lms| - 1])
  }

  /** The loop over the other result's line matches. */
  function MergeLines(acc: seq<LineMatch>, lms: seq<LineMatch>): (r: seq<LineMatch>)
    requires LinesIncreasing(acc)
    ensures LinesIncreasing(r)
    decreases |lms|
  {
    if lms == [] then acc
    else MergeLines(ExtendLine(acc, lms[0]), lms[1..])
  }

  /** `a.combine_with(b)`: keeps a's title, adds the match counts, sorts the
      concatenated title spans and merges the line matches by line number. */
  function Combine(a: SearchResult, b: SearchResult): (r: SearchResult)
    ensures r.title == a.title
    ensures r.matches == a.matches + b.matches
    ensures Sorted(r.titleSpans)
    ensures multiset(r.titleSpans) == multiset(a.titleSpans + b.titleSpans)
    ensures LinesIncreasing(r.lineMatches)
    ensures LinesIncreasing(a.lineMatches) && LinesIncreasing(b.lineMatches) ==>
              forall L :: Find(r.lineMatches, L) == Join(Find(a.lineMatches, L), Find(b.lineMatches, L))
    ensures LinesIncreasing(a.lineMatches) ==>
              SpanTotal(r.lineMatches) == SpanTotal(a.lineMatches) + SpanTotal(b.lineMatches)
    ensures Consistent(a) && Consistent(b) ==> Consistent(r)
  {
    var lines := LinesByNo(a.lineMatches);
    LinesByNoIncreasing(a.lineMatches);
    MergeLinesTotal(lines, b.lineMatches);
    MergeLinesFindAll(lines, b.lineMatches);
    SearchResult(a.title, SortSpans(a.titleSpans + b.titleSpans), MergeLines(lines, b.lineMatches),
                 a.matches + b.matches)
  }

  // ---------------------------------------------------------------------------

  /** On a list already in line order the dict round trip changes nothing. */
  lemma {:induction false} LinesByNoIncreasing(lms: seq<LineMatch>)
    ensures LinesIncreasing(lms) ==> LinesByNo(lms) == lms
  {
    if lms != [] && LinesIncreasing(lms) {
      var init := lms[..|lms| - 1];
      var last := lms[|lms| - 1];
      assert LinesIncreasing(init);
      LinesByNoIncreasing(init);
      PutLast(init, last);
      assert init + [last] == lms;
    }
  }

  /** Putting a line beyond every present line appends it. */
  lemma {:induction false} PutLast(lms: seq<LineMatch>, lm: LineMatch)
    requires LinesIncreasing(lms)
    requires forall i :: 0 <= i < |lms| ==> lms[i].lineNo < lm.lineNo
    ensures PutLine(lms, lm) == lms + [lm]
    decreases |lms|
  {
    if lms != [] {
      IncreasingTail(lms);
      assert forall i :: 0 <= i < |lms[1..]| ==> lms[1..][i].lineNo < lm.lineNo by {
        forall i | 0 <= i < |lms[1..]| ensures lms[1..][i].lineNo < lm.lineNo {
          assert lms[1..][i] == lms[i + 1];
        }
      }
      PutLast(lms[1..], lm);
      assert lm.lineNo > lms[0].lineNo;
      assert PutLine(lms, lm) == [lms[0]] + PutLine(lms[1..], lm);
      HeadAppend(lms, lm);
    }
  }

  lemma HeadAppend(lms: seq<LineMatch>, lm: LineMatch)
    requires lms != []
    ensures [lms[0]] + (lms[1..] + [lm]) == lms + [lm]
  {
    assert lms == [lms[0]] + lms[1..];
  }

  lemma {:induction false} MergeLinesTotal(acc: seq<LineMatch>, lms: seq<LineMatch>)
    requires LinesIncreasing(acc)
    ensures SpanTotal(MergeLines(acc, lms)) == SpanTotal(acc) + SpanTotal(lms)
    decreases |lms|
  {
    if lms != [] {
      MergeLinesTotal(ExtendLine(acc, lms[0]), lms[1..]);
    }
  }

  lemma {:induction false} MergeLinesFind(acc: seq<LineMatch>, lms: seq<LineMatch>, L: int)
    requires LinesIncreasing(acc) && LinesIncreasing(lms)
    ensures Find(MergeLines(acc, lms), L) == Join(Find(acc, L), Find(lms, L))
    decreases |lms|
  {
    if lms != [] {
      IncreasingTail(lms);
      MergeLinesFind(ExtendLine(acc, lms[0]), lms[1..], L);
      if L == lms[0].lineNo {
        assert Find(lms[1..], L) == None;
      }
    }
  }

  lemma MergeLinesFindAll(acc: seq<LineMatch>, lms: seq<LineMatch>)
    requires LinesIncreasing(acc)
    ensures LinesIncreasing(lms) ==>
              forall L :: Find(MergeLines(acc, lms), L) == Join(Find(acc, L), Find(lms, L))
  {
    if LinesIncreasing(lms) {
      forall L ensures Find(MergeLines(acc, lms), L) == Join(Find(acc, L), Find(lms, L)) {
        MergeLinesFind(acc, lms, L);
      }
    }
  }

  /** A line-ordered list is determined by what it holds for each line. */
  lemma {:induction false} FindExt(x: seq<LineMatch>, y: seq<LineMatch>)
    requires LinesIncreasing(x) && LinesIncreasing(y)
    requires forall L :: Find(x, L) == Find(y, L)
    ensures x == y
    decreases |x|
  {
    if x == [] || y == [] {
      FindFirst(x);
      FindFirst(y);
    } else {
      var L0 := x[0].lineNo;
      var M0 := y[0].lineNo;
      assert Find(y, L0).Some? && Find(x, M0).Some?;
      assert M0 == L0;
      FindHead(y, L0);
      IncreasingTail(x);
      IncreasingTail(y);
      forall L ensures Find(x[1..], L) == Find(y[1..], L) {
        if L == L0 {
          assert Find(x[1..], L).None? && Find(y[1..], L).None?;
        } else {
          assert Find(x, L) == Find(x[1..], L) && Find(y, L) == Find(y[1..], L);
        }
      }
      FindExt(x[1..], y[1..]);
      assert x == [x[0]] + x[1..] && y == [y[0]] + y[1..];
    }
  }

  lemma FindFirst(lms: seq<LineMatch>)
    ensures lms != [] ==> Find(lms, lms[0].lineNo) == Some(lms[0])
  {
  }

  lemma JoinAssociative(a: Option<LineMatch>, b: Option<LineMatch>, c: Option<LineMatch>)
    ensures Join(Join(a, b), c) == Join(a, Join(b, c))
  {
    if a.Some? && b.Some? && c.Some? {
      var x, y, z := a.value.spans, b.value.spans, c.value.spans;
      assert (x + y) + z == x + (y + z);
    }
  }

  /** Combining is associative on results whose lines are in order: the
      count, the title spans and every line's text and spans agree however
      the three results are grouped. */
  lemma CombineAssociative(a: SearchResult, b: SearchResult, c: SearchResult)
    requires LinesIncreasing(a.lineMatches) && LinesIncreasing(b.lineMatches)
    requires LinesIncreasing(c.lineMatches)
    ensures Combine(Combine(a, b), c) == Combine(a, Combine(b, c))
  {
    CombineTitlesAssociative(a, b, c);
    CombineLinesAssociative(a, b, c);
  }

  /** Both groupings sort the same multiset of title spans. */
  lemma CombineTitlesAssociative(a: SearchResult, b: SearchResult, c: SearchResult)
    ensures Combine(Combine(a, b), c).titleSpans == Combine(a, Combine(b, c)).titleSpans
  {
    SortRegroup(a.titleSpans, b.titleSpans, c.titleSpans);
  }

  lemma SortRegroup(x: seq<Span>, y: seq<Span>, z: seq<Span>)
    ensures SortSpans(SortSpans(x + y) + z) == SortSpans(x + SortSpans(y + z))
  {
    var left, right := SortSpans(SortSpans(x + y) + z), SortSpans(x + SortSpans(y + z));
    assert multiset(left) == multiset(x) + multiset(y) + multiset(z);
    assert multiset(right) == multiset(x) + multiset(y) + multiset(z);
    SortedUnique(left, right);
  }

  /** Both groupings join the same three entries on every line. */
  lemma CombineLinesAssociative(a: SearchResult, b: SearchResult, c: SearchResult)
    requires LinesIncreasing(a.lineMatches) && LinesIncreasing(b.lineMatches)
    requires LinesIncreasing(c.lineMatches)
    ensures Combine(Combine(a, b), c).lineMatches == Combine(a, Combine(b, c)).lineMatches
  {
    var left := Combine(Combine(a, b), c).lineMatches;
    var right := Combine(a, Combine(b, c)).lineMatches;
    forall L ensures Find(left, L) == Find(right, L) {
      JoinAssociative(Find(a.lineMatches, L), Find(b.lineMatches, L), Find(c.lineMatches, L));
    }
    FindExt(left, right);
  }

  lemma JoinSwap(x: Option<LineMatch>, y: Option<LineMatch>)
    ensures Join(x, y).Some? <==> Join(y, x).Some?
    ensures multiset(SpansOf(Join(x, y))) == multiset(SpansOf(Join(y, x)))
  {
    if x.Some? && y.Some? {
      assert multiset(x.value.spans + y.value.spans) == multiset(y.value.spans + x.value.spans);
    }
  }

  /** Swapping the operands changes only presentation: the count, the sorted
      title spans and the set of matching lines are the same, and each line
      holds the same spans in a different order. */
  lemma CombineSwap(a: SearchResult, b: SearchResult)
    requires LinesIncreasing(a.lineMatches) && LinesIncreasing(b.lineMatches)
    ensures Combine(a, b).matches == Combine(b, a).matches
    ensures Combine(a, b).titleSpans == Combine(b, a).titleSpans
    ensures forall L ::
              && (Find(Combine(a, b).lineMatches, L).Some? <==> Find(Combine(b, a).lineMatches, L).Some?)
              && multiset(SpansOf(Find(Combine(a, b).lineMatches, L)))
                 == multiset(SpansOf(Find(Combine(b, a).lineMatches, L)))
  {
    var ab := Combine(a, b);
    var ba := Combine(b, a);
    assert multiset(a.titleSpans + b.titleSpans) == multiset(b.titleSpans + a.titleSpans);
    SortedUnique(ab.titleSpans, ba.titleSpans);
    forall L
      ensures Find(ab.lineMatches, L).Some? <==> Find(ba.lineMatches, L).Some?
      ensures multiset(SpansOf(Find(ab.lineMatches, L))) == multiset(SpansOf(Find(ba.lineMatches, L)))
    {
      var x, y := Find(a.lineMatches, L), Find(b.lineMatches, L);
      assert Find(ab.lineMatches, L) == Join(x, y);
      assert Find(ba.lineMatches, L) == Join(y, x);
      JoinSwap(x, y);
    }
  }
}

=== FILE: spans.dfy ===
/** Character spans `(start, end)` and the span-merging primitive shared by
    result combination (sorting) and highlighting (coalescing). */
module Spans {

  /** A half-open character range [start, end) inside one title or one line. */
  datatype Span = Span(start: int, end: int)

  /** Python's ordering of `(start, end)` tuples: lexicographic. */
  predicate SpanLe(a: Span, b: Span)
  {
    a.start < b.start || (a.start == b.start && a.end <= b.end)
  }

  ghost predicate Sorted(s: seq<Span>)
  {
    forall i, j :: 0 <= i < j < |s| ==> SpanLe(s[i], s[j])
  }

  /** Every span has its start at or before its end. */
  ghost predicate Proper(s: seq<Span>)
  {
    forall k :: 0 <= k < |s| ==> s[k].start <= s[k].end
  }

  /** Every span is well formed and lies inside [0, n]. */
  ghost predicate Within(s: seq<Span>, n: int)
  {
    forall k :: 0 <= k < |s| ==> 0 <= s[k].start <= s[k].end <= n
  }

  /** Spans are well formed and each one ends strictly before the next starts:
      the canonical, non-touching form produced by merging. */
  ghost predicate Separated(s: seq<Span>)
  {
    && Proper(s)
    && forall i, j :: 0 <= i < j < |s| ==> s[i].end < s[j].start
  }

  /** Position x lies inside one of the spans. */
  ghost predicate Covers(s: seq<Span>, x: int)
  {
    exists k :: 0 <= k < |s| && s[k].start <= x < s[k].end
  }

  function Max(a: int, b: int): int
  {
    if a < b then b else a
  }

  /** Inserts x into a sorted list before the first element it does not exceed. */
  function Insert(x: Span, s: seq<Span>): (r: seq<Span>)
    requires Sorted(s)
    ensures Sorted(r)
    ensures multiset(r) == multiset(s) + multiset{x}
  {
    if s == [] then [x]
    else if SpanLe(x, s[0]) then [x] + s
    else
      var t := Insert(x, s[1..]);
      InsertBehind(x, s, t);
      [s[0]] + t
  }

  lemma InsertBehind(x: Span, s: seq<Span>, t: seq<Span>)
    requires Sorted(s) && s != [] && !SpanLe(x, s[0])
    requires Sorted(t) && multiset(t) == multiset(s[1..]) + multiset{x}
    ensures Sorted([s[0]] + t)
    ensures multiset([s[0]] + t) == multiset(s) + multiset{x}
  {
    assert s == [s[0]] + s[1..];
    forall j | 0 <= j < |t| ensures SpanLe(s[0], t[j]) {
      assert t[j] in multiset(t);
      if t[j] != x {
        assert t[j] in multiset(s[1..]);
        var k :| 0 <= k < |s[1..]| && s[1..][k] == t[j];
        assert SpanLe(s[0], s[k + 1]);
      }
    }
  }

  /** Python's `sorted(spans)`: a sorted permutation of the input. */
  function SortSpans(s: seq<Span>): (r: seq<Span>)
    ensures Sorted(r)
    ensures multiset(r) == multiset(s)
    ensures |r| == |s|
  {
    if s == [] then []
    else
      assert s == [s[0]] + s[1..];
      Insert(s[0], SortSpans(s[1..]))
  }

  /** A sorted list is determined by its multiset of elements, so `SortSpans`
      returns THE sorted permutation, whatever algorithm produced it. */
  lemma {:induction false} SortedUnique(a: seq<Span>, b: seq<Span>)
    requires Sorted(a) && Sorted(b)
    requires multiset(a) == multiset(b)
    ensures a == b
  {
    if a != [] {
      assert |b| == |a| by { assert |multiset(a)| == |multiset(b)|; }
      SortedHeads(a, b);
      TailMultiset(a);
      TailMultiset(b);
      SortedUnique(a[1..], b[1..]);
      assert a == [a[0]] + a[1..];
      assert b == [b[0]] + b[1..];
    }
  }

  lemma SortedHeads(a: seq<Span>, b: seq<Span>)
    requires Sorted(a) && Sorted(b) && a != [] && b != []
    requires multiset(a) == multiset(b)
    ensures a[0] == b[0]
  {
    assert a[0] in multiset(b);
    assert b[0] in multiset(a);
    var i :| 0 <= i < |b| && b[i] == a[0];
    var j :| 0 <= j < |a| && a[j] == b[0];
    assert SpanLe(b[0], a[0]) by { if i > 0 { assert SpanLe(b[0], b[i]); } }
    assert SpanLe(a[0], b[0]) by { if j > 0 { assert SpanLe(a[0], a[j]); } }
  }

  lemma TailMultiset(a: seq<Span>)
    requires a != []
    ensures multiset(a[1..]) == multiset(a) - multiset{a[0]}
    ensures Sorted(a) ==> Sorted(a[1..])
  {
    assert a == [a[0]] + a[1..];
  }

  /** Sorting a list that is already sorted changes nothing. */
  lemma SortSorted(s: seq<Span>)
    requires Sorted(s)
    ensures SortSpans(s) == s
  {
    SortedUnique(SortSpans(s), s);
  }

  /** Sorting depends only on the multiset of spans, not on their input order. */
  lemma {:induction false} SortPermutationInvariant(a: seq<Span>, b: seq<Span>)
    requires multiset(a) == multiset(b)
    ensures SortSpans(a) == SortSpans(b)
  {
    SortedUnique(SortSpans(a), SortSpans(b));
  }

  /** The merge loop of `ansi_highlight`: `cur` is the span being grown and
      `rest` the spans still to visit; a span whose start is at or before the
      current end (overlapping or touching) is absorbed, otherwise `cur` is
      emitted and the next span becomes current. */
  function Coalesce(cur: Span, rest: seq<Span>): (r: seq<Span>)
    ensures |r| > 0 && r[0].start == cur.start
    decreases |rest|
  {
    if rest == [] then [cur]
    else if rest[0].start <= cur.end then
      Coalesce(Span(cur.start, Max(cur.end, rest[0].end)), rest[1..])
    else
      [cur] + Coalesce(rest[0], rest[1..])
  }

  /** Visiting sorted, well-formed spans yields separated spans. */
  lemma {:induction false} CoalesceSeparated(cur: Span, rest: seq<Span>)
    ensures
      (cur.start <= cur.end && Proper(rest) && Sorted(rest)
       && (forall k :: 0 <= k < |rest| ==> cur.start <= rest[k].start))
      ==> Separated(Coalesce(cur, rest))
    decreases |rest|
  {
    if cur.start <= cur.end && Proper(rest) && Sorted(rest)
       && (forall k :: 0 <= k < |rest| ==> cur.start <= rest[k].start)
    {
      if rest == [] {
      } else if rest[0].start <= cur.end {
        CoalesceSeparated(Span(cur.start, Max(cur.end, rest[0].end)), rest[1..]);
      } else {
        CoalesceSeparated(rest[0], rest[1..]);
        var t := Coalesce(rest[0], rest[1..]);
        assert forall j :: 0 < j < |t| ==> t[0].end < t[j].start;
        assert Coalesce(cur, rest) == [cur] + t;
      }
    }
  }

  /** `ansi_highlight`'s merge: sort the spans, then coalesce overlapping or
      touching ones. */
  function Merge(spans: seq<Span>): (r: seq<Span>)
    ensures |r| == 0 <==> |spans| == 0
    ensures Proper(spans) ==> Separated(r)
  {
    if spans == [] then []
    else
      var s := SortSpans(spans);
      SortKeepsWellFormed(spans);
      CoalesceSeparated(s[0], s[1..]);
      Coalesce(s[0], s[1..])
  }

  lemma {:induction false} SortKeepsWellFormed(s: seq<Span>)
    ensures Proper(s) ==> Proper(SortSpans(s))
  {
    var t := SortSpans(s);
    if Proper(s) {
      forall k | 0 <= k < |t| ensures t[k].start <= t[k].end {
        assert t[k] in multiset(s);
      }
    }
  }

  /** Coalescing loses and adds no position: the output covers exactly what
      the current span and the remaining spans cover. */
  lemma {:induction false} CoalesceCovers(cur: Span, rest: seq<Span>, x: int)
    requires Sorted(rest)
    requires forall k :: 0 <= k < |rest| ==> cur.start <= rest[k].start
    ensures Covers(Coalesce(cur, rest), x) <==> (cur.start <= x < cur.end) || Covers(rest, x)
    decreases |rest|
  {
    if rest != [] {
      assert rest == [rest[0]] + rest[1..];
      CoversCons(rest[0], rest[1..], x);
      if rest[0].start <= cur.end {
        CoalesceCovers(Span(cur.start, Max(cur.end, rest[0].end)), rest[1..], x);
      } else {
        CoalesceCovers(rest[0], rest[1..], x);
        CoversCons(cur, Coalesce(rest[0], rest[1..]), x);
      }
    }
  }

  lemma CoversCons(a: Span, s: seq<Span>, x: int)
    ensures Covers([a] + s, x) <==> (a.start <= x < a.end) || Covers(s, x)
  {
    if Covers([a] + s, x) {
      var k :| 0 <= k < |[a] + s| && ([a] + s)[k].start <= x < ([a] + s)[k].end;
      if k > 0 { assert ([a] + s)[k] == s[k - 1]; }
    }
    if Covers(s, x) {
      var k :| 0 <= k < |s| && s[k].start <= x < s[k].end;
      assert ([a] + s)[k + 1] == s[k];
    }
    if a.start <= x < a.end {
      assert ([a] + s)[0] == a;
    }
  }

  /** Sorting keeps the covered positions. */
  lemma {:induction false} SortCovers(s: seq<Span>, x: int)
    ensures Covers(SortSpans(s), x) <==> Covers(s, x)
  {
    var t := SortSpans(s);
    if Covers(s, x) {
      var k :| 0 <= k < |s| && s[k].start <= x < s[k].end;
      assert s[k] in multiset(t);
    }
    if Covers(t, x) {
      var k :| 0 <= k < |t| && t[k].start <= x < t[k].end;
      assert t[k] in multiset(s);
    }
  }

  /** The merged spans cover exactly the union of the input ranges. */
  lemma {:induction false} MergeCovers(spans: seq<Span>, x: int)
    ensures Covers(Merge(spans), x) <==> Covers(spans, x)
  {
    if spans != [] {
      var s := SortSpans(spans);
      SortCovers(spans, x);
      assert Covers(s, x) <==> (s[0].start <= x < s[0].end) || Covers(s[1..], x) by {
        if Covers(s, x) {
          var k :| 0 <= k < |s| && s[k].start <= x < s[k].end;
          if k > 0 { assert s[1..][k - 1] == s[k]; }
        }
        if Covers(s[1..], x) {
          var k :| 0 <= k < |s[1..]| && s[1..][k].start <= x < s[1..][k].end;
          assert s[k + 1] == s[1..][k];
        }
      }
      CoalesceCovers(s[0], s[1..], x);
    }
  }

  /** Coalescing spans inside [0, n] stays inside [0, n]. */
  lemma {:induction false} CoalesceWithin(cur: Span, rest: seq<Span>, n: int)
    requires 0 <= cur.start <= cur.end <= n
    requires Within(rest, n)
    ensures Within(Coalesce(cur, rest), n)
    decreases |rest|
  {
    if rest != [] {
      if rest[0].start <= cur.end {
        CoalesceWithin(Span(cur.start, Max(cur.end, rest[0].end)), rest[1..], n);
      } else {
        CoalesceWithin(rest[0], rest[1..], n);
      }
    }
  }

  /** Merging spans inside [0, n] stays inside [0, n]. */
  lemma {:induction false} MergeWithin(spans: seq<Span>, n: int)
    requires Within(spans, n)
    ensures Within(Merge(spans), n)
  {
    if spans != [] {
      var s := SortSpans(spans);
      assert Within(s, n) by {
        forall k | 0 <= k < |s| ensures 0 <= s[k].start <= s[k].end <= n {
          assert s[k] in multiset(spans);
        }
      }
      CoalesceWithin(s[0], s[1..], n);
    }
  }

  lemma SeparatedSorted(s: seq<Span>)
    requires Separated(s)
    ensures Sorted(s)
  {
  }

  /** Already separated spans pass through the merge loop untouched. */
  lemma {:induction false} CoalesceFixed(cur: Span, rest: seq<Span>)
    requires Separated([cur] + rest)
    ensures Coalesce(cur, rest) == [cur] + rest
    decreases |rest|
  {
    if rest != [] {
      assert ([cur] + rest)[0] == cur && ([cur] + rest)[1] == rest[0];
      assert Separated([rest[0]] + rest[1..]) by {
        assert [rest[0]] + rest[1..] == rest;
        assert forall k :: 0 <= k < |rest| ==> rest[k] == ([cur] + rest)[k + 1];
      }
      CoalesceFixed(rest[0], rest[1..]);
      assert [rest[0]] + rest[1..] == rest;
    }
  }

  /** Merging is idempotent: merging an already merged list returns it. */
  lemma {:induction false} MergeIdempotent(spans: seq<Span>)
    requires Proper(spans)
    ensures Merge(Merge(spans)) == Merge(spans)
  {
    var m := Merge(spans);
    if m != [] {
      SeparatedSorted(m);
      SortSorted(m);
      assert [m[0]] + m[1..] == m;
      CoalesceFixed(m[0], m[1..]);
    }
  }

  /** Merging ignores the order in which the spans were given. */
  lemma {:induction false} MergeOrderIndependent(a: seq<Span>, b: seq<Span>)
    requires multiset(a) == multiset(b)
    ensures Merge(a) == Merge(b)
  {
    SortPermutationInvariant(a, b);
    if a == [] {
      assert |b| == |multiset(b)| == 0;
    } else {
      assert |b| == |multiset(b)| == |multiset(a)| > 0;
    }
  }
}

=== FILE: substring.dfy ===
/** `Sonnet.find_spans`: naive O(n*m) search for every, possibly
    overlapping, occurrence of a pattern. It is not on the indexed search
    path, whose offsets come from the tokenizer. */
module Substring {
  import opened Spans

  /** pattern occurs in text starting at offset i. */
  ghost predicate OccursAt(text: string, pattern: string, i: int)
  {
    0 <= i && i + |pattern| <= |text| && text[i..i + |pattern|] == pattern
  }

  /** Returns the span (i, i + |pattern|) of every occurrence of a non-empty
      pattern, in increasing order of i; an empty pattern yields no spans. */
  method FindSpans(text: string, pattern: string) returns (spans: seq<Span>)
    ensures |pattern| == 0 ==> spans == []
    ensures forall k :: 0 <= k < |spans| ==>
              spans[k].end == spans[k].start + |pattern| && OccursAt(text, pattern, spans[k].start)
    ensures forall k, l :: 0 <= k < l < |spans| ==> spans[k].start < spans[l].start
    ensures |pattern| > 0 ==>
              forall i :: OccursAt(text, pattern, i) ==> Span(i, i + |pattern|) in spans
  {
    spans := [];
    if |pattern| == 0 {
      return;
    }
    var i := 0;
    while i < |text| - |pattern| + 1
      invariant 0 <= i
      invariant |text| - |pattern| + 1 >= 0 ==> i <= |text| - |pattern| + 1
      invariant forall k :: 0 <= k < |spans| ==>
                  spans[k].end == spans[k].start + |pattern| && OccursAt(text, pattern, spans[k].start)
      invariant forall k :: 0 <= k < |spans| ==> spans[k].start < i
      invariant forall k, l :: 0 <= k < l < |spans| ==> spans[k].start < spans[l].start
      invariant forall j :: 0 <= j < i && OccursAt(text, pattern, j) ==> Span(j, j + |pattern|) in spans
    {
      if text[i..i + |pattern|] == pattern {
        spans := spans + [Span(i, i + |pattern|)];
      }
      i := i + 1;
    }
  }
}

=== FILE: tokens.dfy ===
/** `Index.tokenize` (the `\S+` scan) and `str.split()` for queries. */
module Tokens {

  /** Python's Unicode whitespace, as matched by `\s` in a `str` pattern and
      used by `str.split()`: the ASCII controls 9-13 and 28-31, the space, and
      the Unicode space separators, line and paragraph separators. */
  predicate IsSpace(c: char)
  {
    var n := c as int;
    || 9 <= n <= 13
    || 28 <= n <= 32
    || n == 0x85 || n == 0xA0 || n == 0x1680
    || 0x2000 <= n <= 0x200A
    || n == 0x2028 || n == 0x2029 || n == 0x202F || n == 0x205F || n == 0x3000
  }

  /** A token and the 0-based offset of its first character in the text. */
  datatype Token = Token(text: string, pos: nat)

  function End(t: Token): nat
  {
    t.pos + |t.text|
  }

  /** t is a maximal run of non-whitespace characters of text, sitting at its
      recorded offset. */
  ghost predicate MaximalRun(text: string, t: Token)
  {
    && 0 < |t.text|
    && End(t) <= |text|
    && text[t.pos..End(t)] == t.text
    && (forall k :: t.pos <= k < End(t) ==> !IsSpace(text[k]))
    && (t.pos == 0 || IsSpace(text[t.pos - 1]))
    && (End(t) == |text| || IsSpace(text[End(t)]))
  }

  /** Position x lies inside one of the tokens. */
  ghost predicate InSomeToken(toks: seq<Token>, x: int)
  {
    exists k :: 0 <= k < |toks| && toks[k].pos <= x < End(toks[k])
  }

  /** The end of the run of non-whitespace characters starting at i. */
  function RunEnd(text: string, i: nat): (j: nat)
    requires i <= |text|
    ensures i <= j <= |text|
    ensures forall k :: i <= k < j ==> !IsSpace(text[k])
    ensures j == |text| || IsSpace(text[j])
    decreases |text| - i
  {
    if i == |text| || IsSpace(text[i]) then i else RunEnd(text, i + 1)
  }

  /** r lists maximal runs of text at or after offset i, in increasing
      offset order, and misses no non-whitespace character at or after i. */
  ghost predicate TokensFrom(text: string, i: nat, r: seq<Token>)
  {
    && (forall k :: 0 <= k < |r| ==> MaximalRun(text, r[k]) && i <= r[k].pos)
    && (forall k, l :: 0 <= k < l < |r| ==> End(r[k]) < r[l].pos)
    && (forall x :: i <= x < |text| && !IsSpace(text[x]) ==> InSomeToken(r, x))
  }

  /** The tokens of text[i..], scanning left to right. */
  function TokenizeFrom(text: string, i: nat): (r: seq<Token>)
    requires i <= |text|
    requires i == 0 || IsSpace(text[i - 1])
    ensures TokensFrom(text, i, r)
    decreases |text| - i
  {
    if i == |text| then []
    else if IsSpace(text[i]) then
      var r := TokenizeFrom(text, i + 1);
      SkipSpace(text, i, r);
      r
    else
      var j := RunEnd(text, i);
      var rest := if j == |text| then [] else TokenizeFrom(text, j + 1);
      TakeRun(text, i, j, rest);
      [Token(text[i..j], i)] + rest
  }

  lemma SkipSpace(text: string, i: nat, r: seq<Token>)
    requires i < |text| && IsSpace(text[i])
    requires TokensFrom(text, i + 1, r)
    ensures TokensFrom(text, i, r)
  {
  }

  lemma TakeRun(text: string, i: nat, j: nat, rest: seq<Token>)
    requires i < j <= |text|
    requires i == 0 || IsSpace(text[i - 1])
    requires forall k :: i <= k < j ==> !IsSpace(text[k])
    requires j == |text| || IsSpace(text[j])
    requires j == |text| ==> rest == []
    requires j < |text| ==> TokensFrom(text, j + 1, rest)
    ensures TokensFrom(text, i, [Token(text[i..j], i)] + rest)
  {
    var t := Token(text[i..j], i);
    var r := [t] + rest;
    assert MaximalRun(text, t);
    forall k | 0 <= k < |r| ensures MaximalRun(text, r[k]) && i <= r[k].pos {
      if k > 0 { assert r[k] == rest[k - 1]; }
    }
    forall k, l | 0 <= k < l < |r| ensures End(r[k]) < r[l].pos {
      assert r[l] == rest[l - 1];
      if k > 0 { assert r[k] == rest[k - 1]; }
    }
    TakeRunCovers(text, i, j, rest);
  }

  lemma TakeRunCovers(text: string, i: nat, j: nat, rest: seq<Token>)
    requires i < j <= |text|
    requires j == |text| ==> rest == []
    requires j < |text| ==> forall x :: j + 1 <= x < |text| && !IsSpace(text[x]) ==> InSomeToken(rest, x)
    requires j == |text| || IsSpace(text[j])
    ensures forall x :: i <= x < |text| && !IsSpace(text[x]) ==> InSomeToken([Token(text[i..j], i)] + rest, x)
  {
    var t := Token(text[i..j], i);
    var r := [t] + rest;
    forall x | i <= x < |text| && !IsSpace(text[x]) ensures InSomeToken(r, x) {
      if x < j {
        assert r[0] == t;
      } else {
        var k :| 0 <= k < |rest| && rest[k].pos <= x < End(rest[k]);
        assert r[k + 1] == rest[k];
      }
    }
  }

  /** `Index.tokenize(text)`: the maximal non-whitespace runs with their
      offsets. */
  function Tokenize(text: string): (r: seq<Token>)
    ensures forall k :: 0 <= k < |r| ==> MaximalRun(text, r[k])
    ensures forall k, l :: 0 <= k < l < |r| ==> End(r[k]) < r[l].pos
    ensures forall x :: 0 <= x < |text| && !IsSpace(text[x]) ==> InSomeToken(r, x)
  {
    TokenizeFrom(text, 0)
  }

  /** The tokenizer yields nothing exactly when the text is empty or all
      whitespace. */
  lemma TokenizeEmpty(text: string)
    ensures Tokenize(text) == [] <==> forall x :: 0 <= x < |text| ==> IsSpace(text[x])
  {
    var r := Tokenize(text);
    if r != [] {
      assert MaximalRun(text, r[0]);
      assert !IsSpace(text[r[0].pos]);
    }
  }

  /** Two maximal runs that share a position are the same token. */
  lemma MaximalRunsMeet(text: string, t: Token, u: Token, x: int)
    requires MaximalRun(text, t) && MaximalRun(text, u)
    requires t.pos <= x < End(t) && u.pos <= x < End(u)
    ensures t == u
  {
    assert t.text == text[t.pos..End(t)];
  }

  /** The tokenizer returns every maximal run of non-whitespace characters
      and nothing else: its output, in increasing offset order, is the set of
      all such runs. */
  lemma TokenizeComplete(text: string, t: Token)
    ensures t in Tokenize(text) <==> MaximalRun(text, t)
  {
    var r := Tokenize(text);
    if MaximalRun(text, t) {
      assert !IsSpace(text[t.pos]);
      var k :| 0 <= k < |r| && r[k].pos <= t.pos < End(r[k]);
      MaximalRunsMeet(text, t, r[k], t.pos);
    }
  }

  /** `query.split()`: the whitespace-separated words of the query, in the
      order the tokenizer finds them. */
  function Words(query: string): (ws: seq<string>)
    ensures |ws| == |Tokenize(query)|
    ensures forall k :: 0 <= k < |ws| ==> ws[k] == Tokenize(query)[k].text
    ensures forall k :: 0 <= k < |ws| ==> |ws[k]| > 0 && forall c :: c in ws[k] ==> !IsSpace(c)
    ensures forall t :: MaximalRun(query, t) ==> t.text in ws
    ensures ws == [] <==> forall x :: 0 <= x < |query| ==> IsSpace(query[x])
  {
    var toks := Tokenize(query);
    var ws := seq(|toks|, k requires 0 <= k < |toks| => toks[k].text);
    WordsShape(query, toks, ws);
    TokenizeEmpty(query);
    ws
  }

  /** The words taken from the tokens are non-empty, free of whitespace, and
      include the text of every maximal run. */
  lemma WordsShape(query: string, toks: seq<Token>, ws: seq<string>)
    requires toks == Tokenize(query)
    requires |ws| == |toks| && forall k :: 0 <= k < |toks| ==> ws[k] == toks[k].text
    ensures forall k :: 0 <= k < |ws| ==> |ws[k]| > 0 && forall c :: c in ws[k] ==> !IsSpace(c)
    ensures forall t :: MaximalRun(query, t) ==> t.text in ws
  {
    forall k | 0 <= k < |toks|
      ensures |toks[k].text| > 0 && forall c :: c in toks[k].text ==> !IsSpace(c)
    {
      assert MaximalRun(query, toks[k]);
      forall c | c in toks[k].text ensures !IsSpace(c) {
        var m :| 0 <= m < |toks[k].text| && toks[k].text[m] == c;
        assert query[toks[k].pos + m] == c;
      }
    }
    forall t | MaximalRun(query, t) ensures t.text in ws {
      TokenizeComplete(query, t);
      var k :| 0 <= k < |toks| && toks[k] == t;
      assert ws[k] == t.text;
    }
  }
}
